=== FILE: README.md ===
# Room allocation and stay pricing

This project models the pricing engine of a hotel quotation back end. A travel
party (adults, plus children with their ages) asks for a stay between a
check-in and a check-out day. The engine does the following:

- It looks up each hotel's child-age ceiling and counts older children as adults.
- It finds a multiplier (*çarpan*) for the party. That is either one room
  holding the whole party, or a split of the party over several rooms whose
  every room has a multiplier row.
- It adds up the nightly rates (*fiyat*) of each room type and board concept
  (*konsept*) over the nights of the stay.
- It multiplies that sum by the multiplier. Each hotel gets a list of
  offerings: room count, room type, concept and amount.

Two search strategies live side by side:

- **The unbounded strategy.** `generateCombinations` and
  `findBestRoomDistribution` enumerate every ordered split of the party.
  The chosen split is the fully priced one with the smallest total
  multiplier.
- **The bounded strategy.** This is the one the request handler uses.
  `generateRoomCombinations` lists the whole party in one room, then every
  split into two rooms, then every split into three. The handler takes the
  single room when its factor is non-zero. Otherwise it takes the first
  split whose every room has a row.

The two strategies are connected by `Strategies.BoundedIsCappedEnumeration`.
For a well-formed party with at least one adult, the bounded list holds the
same splits as the enumeration restricted to at most three rooms, but in a
different order: the whole party first. Order matters because the handler
prices the first split that matches; for two adults the enumeration puts the
two single rooms first and the bounded list the double room
(`Strategies.ListOrderDiffers`). A party without an adult
is where they part otherwise: the bounded list still holds the whole party
in one room, while the enumeration holds only the empty split or nothing
(`Strategies.NoAdultOnlyBounded`).

Modules, leaves first:

- `Wrappers`: `Option`.
- `SeqUtil`: JavaScript `find` and the clamping `slice`.
- `Catalog`: the three read-only tables and the age intervals.
- `Guests`: parties, rooms, and what it means to split a party.
- `RoomDistribution`: the unbounded strategy.
- `GuestNormalization`, `CarpanLookup`, `RoomCombinations`, `FactorSelection`,
  `StayPricing`, `HotelOfferings` and `RequestPricing`: the request handler,
  from the child-age ceiling to the per-hotel quotes.
- `Strategies`: how the two split generators relate.

Dates are day numbers. Prices, factors and ages are exact reals.

The code behaves in several places differently from what its purpose
(the cheapest valid room split, priced over the stay) would suggest. The
model follows the code in each:

- **Malformed age intervals.** An interval side that is missing or does not
  parse puts no bound on its own side, because every comparison with `NaN`
  or `undefined` is false. A numeric other side still rejects ages beyond
  it: the column text "6" rejects age 3. Only an interval with both sides
  malformed matches every age (`Catalog.MalformedSideUnbounded`).
- **Interval count in `getMultiplier`.** `getMultiplier` does not compare
  the number of intervals with the number of children. It only needs an
  age at every interval position. A row without a child count never
  matches there. `findCarpan` does compare the two counts, and reads a
  missing child count as 0.
- **Choosing a split.** The request handler does not look for the cheapest
  valid split. It takes the first split (in list order, at most three
  rooms) whose every room has a row. A row with factor 0 counts as a match
  there.
- **Single-room factor 0.** When the single-room factor is 0, the fallback
  finds that same single room first, so the offering is dropped
  (`FactorSelection.ZeroSingleFactorDropsOffering`).
- **Room cap.** The bounded list never has more than three rooms, although
  the enumeration has splits into any number of rooms
  (`Strategies.FourSinglesOnlyEnumerated`).
- **Normalising the party.** The handler normalises the party again for
  every rate row, although it depends only on the hotel. The model does it
  per row, as the code does.
- **Deduplicating offerings.** Offerings are deduplicated by the string
  `roomType + "|" + concept`. Two different pairs whose names contain `|`
  can share that string; the model keeps that behaviour.

## Model

| member | source | states |
|---|---|---|
| `Catalog.MalformedSideUnbounded` | backend/src/oda_dagilimi_hesaplama.ts:43-52 | a missing or unparseable interval side bounds nothing on its side while a numeric side still rejects ages beyond it ("6" rejects age 3); only an interval with both sides malformed admits every age |
| `RoomDistribution.GetMultiplier` | backend/src/oda_dagilimi_hesaplama.ts:21-61 | `None` exactly when no row has the hotel name, room type, adult count and child count, with an age inside every non-empty interval at its position; otherwise the factor of the first such row |
| `RoomDistribution.Partitions` | backend/src/oda_dagilimi_hesaplama.ts:64-97 | an empty party gives the single empty split; a party with children and no adults gives no split |
| `RoomDistribution.SplitsSound` | backend/src/oda_dagilimi_hesaplama.ts:69-93 | every list `backtrack` emits extends the rooms placed so far with rooms that each hold an adult and together hold exactly the remaining adults and children |
| `RoomDistribution.AdultChoicesSound` | backend/src/oda_dagilimi_hesaplama.ts:75-92 | the same for what the adult-count loop emits from a given count on |
| `RoomDistribution.ChildChoicesSound` | backend/src/oda_dagilimi_hesaplama.ts:76-91 | the same for what the child-count loop emits from a given count on |
| `RoomDistribution.ExtendsByRoom` | backend/src/oda_dagilimi_hesaplama.ts:77-89 | placing a room of `a` adults and the next `c` ages, then splitting the rest, splits what remained before |
| `RoomDistribution.SplitsComplete` | backend/src/oda_dagilimi_hesaplama.ts:69-93 | every partition of the remaining guests is emitted after the rooms placed so far |
| `RoomDistribution.ChildChoicesContain` | backend/src/oda_dagilimi_hesaplama.ts:76-91 | the child loop from `c0` emits everything the recursive call for any `c >= c0` emits |
| `RoomDistribution.AdultChoicesContain` | backend/src/oda_dagilimi_hesaplama.ts:75-92 | the adult loop from `a0` emits everything the child loop for any `a >= a0` emits |
| `RoomDistribution.PartitionsExactly` | backend/src/oda_dagilimi_hesaplama.ts:64-97 | for a party whose child count matches its ages, a room list is returned exactly when it is a partition: an adult in every room, counts conserved, ages cut into consecutive slices in order |
| `RoomDistribution.PartitionsConserveCounts` | backend/src/oda_dagilimi_hesaplama.ts:64-97 | every returned split has an adult per room and the party's adult and child totals |
| `RoomDistribution.SingleRoomIsAPartition` | backend/src/oda_dagilimi_hesaplama.ts:64-97 | the whole party in one room is among the splits when its child count matches its ages and it has an adult |
| `RoomDistribution.Backtrack` | backend/src/oda_dagilimi_hesaplama.ts:69-93 | the loop nest appends to `results` exactly the splits the recursive search defines, in emission order |
| `RoomDistribution.GenerateCombinations` | backend/src/oda_dagilimi_hesaplama.ts:64-97 | returns the enumeration; each element conserves counts; for a well-formed party an element is returned iff it is a partition |
| `RoomDistribution.Annotate` | backend/src/oda_dagilimi_hesaplama.ts:114-129 | one room option per room, with the room's guests and its multiplier |
| `RoomDistribution.PriceRooms` | backend/src/oda_dagilimi_hesaplama.ts:110-129 | `valid` iff every room has a non-zero multiplier; then the room details and the sum of the multipliers |
| `RoomDistribution.PricedPrefixStep` | backend/src/oda_dagilimi_hesaplama.ts:114-129 | a room without a usable multiplier makes the split unpriced; a priced one extends the details and the total by that room |
| `RoomDistribution.CheapestIsGlobal` | backend/src/oda_dagilimi_hesaplama.ts:100-140 | the cheapest emitted split costs no more than any fully priced partition of a well-formed party |
| `RoomDistribution.SomePricedIsGlobal` | backend/src/oda_dagilimi_hesaplama.ts:100-140 | for a well-formed party, no emitted split is fully priced iff no partition is |
| `RoomDistribution.CheapestFirst` | backend/src/oda_dagilimi_hesaplama.ts:131-136 | the first acceptable element is the best one so far |
| `RoomDistribution.CheapestStep` | backend/src/oda_dagilimi_hesaplama.ts:131-136 | the best index moves to the next element exactly when it is acceptable and strictly cheaper; the earliest cheapest one stays best |
| `RoomDistribution.CheapestSplit` | backend/src/oda_dagilimi_hesaplama.ts:109-137 | the loop over the splits yields nothing iff no split is fully priced; otherwise the priced details of the first split whose total is strictly below that of every earlier priced split and no more than any later one |
| `RoomDistribution.FindBestRoomDistribution` | backend/src/oda_dagilimi_hesaplama.ts:100-140 | `null` iff no split is fully priced; otherwise the first split with the smallest total multiplier (strictly cheaper than every earlier one), with its room details; for a well-formed party the total is the minimum over all partitions |
| `GuestNormalization.UpperBoundsOfMembers` | backend/src/index.ts:59-62 | a bound is read from a list of intervals iff it is read from one of them |
| `GuestNormalization.CeilingCandidatesMembers` | backend/src/index.ts:57-62 | a number is a candidate iff some row of the hotel contributes it among the upper bounds of its intervals (with `UpperBoundsOfMembers`: iff it is read from one interval of such a row) |
| `GuestNormalization.Max` | backend/src/index.ts:64 | the result is one of the numbers and no number exceeds it |
| `GuestNormalization.MaxChildAge` | backend/src/index.ts:56-65 | 11 when the hotel's rows give no upper bound, otherwise the largest one |
| `GuestNormalization.KeptAgesAppend` | backend/src/index.ts:78-85 | the kept and the dropped ages of a concatenation are the concatenations of each part's |
| `GuestNormalization.KeptAgesBounded` | backend/src/index.ts:78-85 | kept ages are at most the ceiling, dropped ones above it |
| `GuestNormalization.KeptAndDropped` | backend/src/index.ts:78-85 | the kept and the dropped ages together are the ages as a multiset, and their lengths add up |
| `GuestNormalization.ReclassifyAges` | backend/src/index.ts:74-87 | the age loop moves exactly the ages above the given ceiling to the adults and keeps the others in order; the party size is unchanged |
| `GuestNormalization.NormalizeGuests` | backend/src/index.ts:67-88 | children above the ceiling become adults, the others keep their order; the child count is the number kept; the party size is unchanged |
| `CarpanLookup.FindCarpan` | backend/src/index.ts:90-113 | `None` exactly when no row has the hotel id, room type, adult count, child count (missing read as 0), as many intervals as ages and each age in its interval; otherwise the first such row's factor |
| `RoomCombinations.TwoRoomsSplit` | backend/src/index.ts:129-132 | a two-room entry has an adult per room, conserves counts, and for a well-formed party cuts the ages in order |
| `RoomCombinations.ThreeRoomsSplit` | backend/src/index.ts:144-148 | the same for a three-room entry, with the middle room taking the next ages |
| `RoomCombinations.ThreeGroupsSplit` | backend/src/index.ts:144-148 | three rooms with an adult each whose counts add up, and whose ages (for a well-formed party) are the party's in order, are a multi-room split |
| `RoomCombinations.TwoChildrenFromSound` | backend/src/index.ts:127-133 | every entry of the two-room child loop is a multi-room split of the party |
| `RoomCombinations.TwoFromSound` | backend/src/index.ts:124-135 | every entry of the two-room loops is a multi-room split of the party |
| `RoomCombinations.ThreeLastFromSound` | backend/src/index.ts:142-149 | every entry of the innermost three-room loop is a multi-room split |
| `RoomCombinations.ThreeChildrenFromSound` | backend/src/index.ts:141-150 | every entry of the first-room child loop is a multi-room split |
| `RoomCombinations.ThreeSecondFromSound` | backend/src/index.ts:139-151 | every entry of the second-room adult loop is a multi-room split |
| `RoomCombinations.ThreeFromSound` | backend/src/index.ts:137-152 | every entry of the three-room loops is a multi-room split |
| `RoomCombinations.CombinationsSound` | backend/src/index.ts:115-156 | the first entry is the whole party in one room; every entry is that room or a split into two or three rooms with an adult each, counts conserved and, for a well-formed party, ages in order |
| `RoomCombinations.TwoChildrenFromContains` | backend/src/index.ts:127-133 | the two-room child loop from `c0` lists the split for every `c1 >= c0` |
| `RoomCombinations.TwoFromContains` | backend/src/index.ts:124-135 | the two-room loops list every two-room split with first-room adults from `a1` on |
| `RoomCombinations.ThreeLastFromContains` | backend/src/index.ts:142-149 | the innermost loop lists every second-room child count from `c2` on |
| `RoomCombinations.ThreeChildrenFromContains` | backend/src/index.ts:141-150 | the first-room child loop lists every pair of child counts from `c1` on |
| `RoomCombinations.ThreeSecondFromContains` | backend/src/index.ts:139-151 | the second-room adult loop lists every three-room split with second-room adults from `a2` on |
| `RoomCombinations.ThreeFromContains` | backend/src/index.ts:137-152 | the three-room loops list every three-room split |
| `RoomCombinations.CombinationsComplete` | backend/src/index.ts:115-156 | for a well-formed party every partition into two or three rooms is listed |
| `RoomCombinations.TwoPartitionListed` | backend/src/index.ts:124-135 | every two-room partition of a well-formed party is listed |
| `RoomCombinations.ThreePartitionListed` | backend/src/index.ts:137-152 | every three-room partition of a well-formed party is listed |
| `RoomCombinations.PushTwoRoomSplits` | backend/src/index.ts:124-135 | the two-room loop nest appends exactly the two-room list, in order |
| `RoomCombinations.PushTwoRoomChildren` | backend/src/index.ts:127-133 | the child loop for one first-room adult count appends exactly its entries, in order |
| `RoomCombinations.PushThreeRoomLast` | backend/src/index.ts:142-149 | the innermost loop appends exactly its entries, in order |
| `RoomCombinations.PushThreeRoomChildren` | backend/src/index.ts:141-150 | the first-room child loop appends exactly its entries, in order |
| `RoomCombinations.PushThreeRoomSecond` | backend/src/index.ts:139-151 | the second-room adult loop appends exactly its entries, in order |
| `RoomCombinations.PushThreeRoomSplits` | backend/src/index.ts:137-152 | the three-room loop nest appends exactly the three-room list, in order |
| `RoomCombinations.GenerateRoomCombinations` | backend/src/index.ts:115-156 | returns the bounded list: whole party first, every entry sound, and (for a well-formed party) every two- or three-room partition present |
| `FactorSelection.SelectFactor` | backend/src/index.ts:207-226 | a selection has a non-zero factor for one to three rooms; a non-zero single-room factor is taken as is, for one room |
| `FactorSelection.SelectionIsFirstMatchedSplit` | backend/src/index.ts:212-223 | without a usable single-room factor, a selection comes from the first listed split with a row for every room: its room count and its summed factor |
| `FactorSelection.NoSelectionWhenNoSplitMatches` | backend/src/index.ts:212-226 | without a usable single-room factor, the room type is skipped iff no listed split has a row for every room or the first one sums to 0 |
| `FactorSelection.SelectionWithoutSingleRowIsMultiRoom` | backend/src/index.ts:209-223 | with no single-room row at all, a selection is the first matching split, a split into two or three rooms of the party |
| `FactorSelection.ZeroSingleFactorDropsOffering` | backend/src/index.ts:209-226 | a single-room row with factor 0 drops the room type |
| `StayPricing.NightsOf` | backend/src/index.ts:192-197 | one night per day from check-in to check-out, none for an empty or inverted stay |
| `StayPricing.NightsOfCoverStay` | backend/src/index.ts:192-197 | night `k` is check-in plus `k`; a day is a night iff it lies in `[checkin, checkout)` |
| `StayPricing.StayNights` | backend/src/index.ts:192-197 | the cursor loop produces exactly the nights of the stay |
| `StayPricing.NightRateFirst` | backend/src/index.ts:232-244 | `None` iff no row of the hotel has the room type and concept and a period containing the night (both ends included); otherwise the first such row's price |
| `StayPricing.StayTotalDefined` | backend/src/index.ts:228-250 | the stay has a total iff every night has a rate |
| `StayPricing.StayTotalAppend` | backend/src/index.ts:231-250 | splitting the nights in two: defined iff both parts are, and the total is the sum of the parts' totals |
| `StayPricing.StayTotalStep` | backend/src/index.ts:231-249 | one more night with a rate adds that rate to the total so far |
| `StayPricing.NightWithoutRate` | backend/src/index.ts:245-248 | one night without a rate leaves the stay without a total |
| `StayPricing.SumStay` | backend/src/index.ts:228-250 | the night loop with its early exit: valid iff every night has a rate, and then the sum of the rates |
| `StayPricing.NormalizedParty` | backend/src/index.ts:67-88 | the normalised party is well formed; its ages are exactly the requested ages up to the ceiling, in order, and its adults the requested ones plus one per older child; so it keeps the party size, and its ages are bounded by the ceiling and taken from the requested ones |
| `StayPricing.OfferFor` | backend/src/index.ts:202-260 | an offering exists iff a factor is selected and every night has a rate; it carries the row's room type and concept, the selected room count and factor (one to three rooms, non-zero), and the stay's summed rates (the amount, their product with the factor, is stated by `OfferedAmount`) |
| `StayPricing.OfferedAmount` | backend/src/index.ts:207-253 | an offering a row yields has the selection for its room type as its room count and factor and the stay's summed rates for its room type and concept (its amount, the product of the two, follows by unfolding `Amount`) |
| `StayPricing.UncoveredNightDropsOffering` | backend/src/index.ts:245-248 | a night without an applicable rate row drops the offering |
| `StayPricing.OfferCoversStay` | backend/src/index.ts:231-252 | an offering means every day of the stay has a rate for its room type and concept |
| `StayPricing.SingleRoomOffering` | backend/src/index.ts:207-253 | a party that fits one room at a non-zero factor is offered one room at the stay's rates with that factor |
| `StayPricing.ChooseFactor` | backend/src/index.ts:207-226 | the single-room lookup with its fallback computes the selection |
| `StayPricing.PriceRow` | backend/src/index.ts:203-260 | the work done for one rate row yields that row's offering for the normalised party |
| `HotelOfferings.HotelOfferKeepsKey` | backend/src/index.ts:203-258 | an offering carries the room-type-and-concept key of its row |
| `HotelOfferings.UniqueIsOfferedKeys` | backend/src/index.ts:199-261 | a key is in the seen set iff some scanned row with that key yields an offering |
| `HotelOfferings.OfferingKeysDistinct` | backend/src/index.ts:199-261 | the seen set holds exactly the offerings' keys, and no two offerings share a key |
| `HotelOfferings.OffersFirstStep` | backend/src/index.ts:202-204 | appending a row leaves the earlier rows' first-offer status unchanged |
| `HotelOfferings.AcceptedExactly` | backend/src/index.ts:199-261 | an offering is listed iff it is what some row yields while no earlier row with the same key yields one |
| `HotelOfferings.AcceptedFromRow` | backend/src/index.ts:199-261 | every listed offering is what some row of the hotel yields |
| `HotelOfferings.PriceHotel` | backend/src/index.ts:199-261 | the row loop with its seen set produces exactly the accepted offerings, in order |
| `RequestPricing.HotelKeysMembers` | backend/src/index.ts:173-179 | the groups are the distinct (id, name) keys of the rows the filter keeps |
| `RequestPricing.RowsOfMembers` | backend/src/index.ts:173-179 | a row is in a group iff the filter keeps it and it has the group's id and name |
| `RequestPricing.RowsOfStep` | backend/src/index.ts:174-178 | one more row extends its own group and no other |
| `RequestPricing.HotelKeysStep` | backend/src/index.ts:174-178 | one more row adds its key at the end when the filter keeps it and the key is new, and otherwise leaves the keys as they were |
| `RequestPricing.RowsGroupStep` | backend/src/index.ts:174-178 | appending a row to its own group keeps every group equal to the rows of the scanned prefix with its key |
| `RequestPricing.GroupsStep` | backend/src/index.ts:174-178 | one iteration of the grouping loop keeps the keys and groups equal to those of the scanned rows |
| `RequestPricing.AddToGroup` | backend/src/index.ts:175-178 | a row the filter drops changes nothing; a kept row is appended to its key's group, which is created, with its key at the end of the key order, when missing |
| `RequestPricing.GroupByHotel` | backend/src/index.ts:173-179 | the grouping loop yields the groups in first-insertion order and the rows of each |
| `RequestPricing.NameBeforeBar` | backend/src/index.ts:184 | the displayed name is the part of the hotel name before its first bar character |
| `RequestPricing.LocationOf` | backend/src/index.ts:187 | the first hotel record with the id gives the location; none gives the empty text |
| `RequestPricing.QuotesFor` | backend/src/index.ts:183-264 | one quote per group |
| `RequestPricing.QuotesForElements` | backend/src/index.ts:183-264 | the i-th quote is the i-th group's |
| `RequestPricing.QuotesForStep` | backend/src/index.ts:183-264 | one more group adds its quote at the end |
| `RequestPricing.HotelFilterRespected` | backend/src/index.ts:175 | with a non-zero filter every quoted hotel is the filtered one; without one every hotel with a rate row is quoted |
| `RequestPricing.ResponseOfferingsPriced` | backend/src/index.ts:183-264 | every quoted offering matches a rate row of its hotel, has one to three rooms and a non-zero factor, and has a rate on every day of the stay |
| `RequestPricing.QuoteKeysDistinct` | backend/src/index.ts:199-261 | no two offerings of a quote share a room-type-and-concept key |
| `RequestPricing.ResponseOfferingRow` | backend/src/index.ts:183-261 | every quoted offering is what some row of its hotel's group yields for the normalised party and the stay |
| `RequestPricing.ResponseOfferingsAmount` | backend/src/index.ts:206-253 | every quoted offering has the room count and factor selected for its room type and the hotel's normalised party, and the stay's summed rates (its amount, the product of the two, follows by unfolding `Amount`) |
| `RequestPricing.QuoteHotel` | backend/src/index.ts:184-261 | one pass of the outer loop yields the group's quote |
| `RequestPricing.QuoteGroups` | backend/src/index.ts:183-264 | the outer loop yields the quotes of the groups in order |
| `RequestPricing.PriceRequest` | backend/src/index.ts:173-264 | the handler's answer is the group quotes in group order: name, location and accepted offerings |
| `Strategies.OneRoomSplitIsParty` | backend/src/index.ts:122 | a one-room partition of a party is the party itself |
| `Strategies.BoundedIsCappedEnumeration` | backend/src/index.ts:115-156 | for a well-formed party with an adult, a split is in the bounded list iff it has at most three rooms and is in the unbounded enumeration |
| `Strategies.NoAdultOnlyBounded` | backend/src/index.ts:115-122 | for a party without an adult the bounded list is the whole party in one room, a split the enumeration never has |
| `Strategies.MoreThanThreeRoomsOnlyEnumerated` | backend/src/index.ts:115-156 | a partition into more than three rooms is enumerated but never in the bounded list |
| `Strategies.ListOrderDiffers` | backend/src/index.ts:115-156 | for two adults the enumeration lists two single rooms before the double room, while the bounded list puts the double room first: the lists agree on membership only |
| `Strategies.FourSinglesOnlyEnumerated` | backend/src/oda_dagilimi_hesaplama.ts:64-97 | four adults in four single rooms is enumerated but not in the bounded list |

## Left out

- Express routing, JSON loading of the three tables, `dayjs` date parsing and the Turkish date, party and price formatting (`formatTarih`, `formatYetiskinCocuk`, `Math.round`, `toLocaleString`) are not modelled. The quote holds the unformatted amount as summed rates and factor (`StayPricing.Amount`).
- The response's stay-level fields (dates, night count text) and the numbered response keys (`otel_adi_N`, letter suffixes) are not modelled. The quote list's order and each quote's offering order carry the same information.
- Age-interval text is not parsed. Each interval side is given already parsed as a number, `NaN` or missing.
- Floating-point accumulation and rounding are not modelled; prices, factors and ages are exact reals.
- JavaScript numbers are modelled as `nat` for guest counts and `int` for ids and days. Negative adult counts and `NaN` ages are outside the model.
- The hotel filter is modelled as an optional integer where 0 means no filter. A string filter such as `"0"`, which JavaScript treats as truthy, is not distinguished.
- The `children` request field is passed along but never used by `normalizeGuests`. The model drops it there and counts children from the ages list.
- Copies made with spreads (`{ ...g }`, `current.map`) are values in the model. Aliasing is not modelled.

=== FILE: carpan_lookup.dfy ===
/** `findCarpan`: the live path's multiplier lookup by hotel id. */
module CarpanLookup {
  import opened Wrappers
  import opened SeqUtil
  import opened Catalog

  /** `Number(c.cocuk_sayisi || 0)`: a missing child count reads as 0. */
  function ChildCountOrZero(row: MultiplierRow): int
  {
    if row.children.Some? then row.children.value else 0
  }

  /**
   * The row test of `findCarpan`: hotel id, room type, adults and children
   * equal, as many non-empty intervals as ages, and each age inside the
   * interval at its own position.
   */
  predicate CarpanFits(row: MultiplierRow, hotelId: int, roomType: string, adults: nat, children: nat, ages: seq<real>)
  {
    && row.hotelId == hotelId
    && row.roomType == roomType
    && row.adults == adults
    && ChildCountOrZero(row) == children
    && |Intervals(row)| == |ages|
    && forall i :: 0 <= i < |ages| ==> InRange(ages[i], Intervals(row)[i])
  }

  /** The factor of the first fitting row, `None` when no row fits. */
  function FindCarpan(carpans: seq<MultiplierRow>, hotelId: int, roomType: string, adults: nat, children: nat, ages: seq<real>): (r: Option<real>)
    ensures r.None? <==> forall k :: 0 <= k < |carpans| ==> !CarpanFits(carpans[k], hotelId, roomType, adults, children, ages)
    ensures r.Some? ==> exists k :: 0 <= k < |carpans| && CarpanFits(carpans[k], hotelId, roomType, adults, children, ages)
                                   && r.value == carpans[k].factor
                                   && forall j :: 0 <= j < k ==> !CarpanFits(carpans[j], hotelId, roomType, adults, children, ages)
  {
    match FirstIndex(carpans, row => CarpanFits(row, hotelId, roomType, adults, children, ages))
    case None => None
    case Some(k) => Some(carpans[k].factor)
  }
}

=== FILE: catalog.dfy ===
/**
 * The three read-only catalogue tables: nightly rate rows (`Fiyat`),
 * multiplier rows (`Carpan`) and hotel metadata (`Otel`).
 *
 * A child-age interval column holds text such as "0-6,99". The model receives
 * it already split at '-' and parsed: each side is a number, a value that does
 * not parse (`NaN`), or missing (no second part, or an empty one). Comparisons
 * with `NaN` or `undefined` are false in JavaScript, so such a side never
 * rejects an age.
 */
module Catalog {
  import opened Wrappers

  datatype Bound = Num(v: real) | NaN | Absent

  datatype AgeRange = AgeRange(lo: Bound, hi: Bound)

  /** `!(age < min || age > max)`: a side that is not a number constrains nothing. */
  predicate InRange(age: real, r: AgeRange)
  {
    !(r.lo.Num? && age < r.lo.v) && !(r.hi.Num? && age > r.hi.v)
  }

  /**
   * A malformed side bounds nothing on its own side, while a numeric side
   * still rejects ages beyond it: "6" (no upper side) rejects age 3 and
   * "x-6" rejects age 9. Only an interval with both sides malformed
   * admits every age.
   */
  lemma MalformedSideUnbounded(age: real, lo: Bound, hi: Bound)
    ensures !lo.Num? ==> (InRange(age, AgeRange(lo, hi)) <==> !(hi.Num? && age > hi.v))
    ensures !hi.Num? ==> (InRange(age, AgeRange(lo, hi)) <==> !(lo.Num? && age < lo.v))
    ensures !lo.Num? && !hi.Num? ==> InRange(age, AgeRange(lo, hi))
    ensures !InRange(3.0, AgeRange(Num(6.0), Absent)) && !InRange(9.0, AgeRange(NaN, Num(6.0)))
  {
  }

  /** A multiplier row; an interval column is `None` when it is missing or empty. */
  datatype MultiplierRow = MultiplierRow(
    hotelId: int,
    hotelName: string,
    roomType: string,
    adults: int,
    children: Option<int>,
    first: Option<AgeRange>,
    second: Option<AgeRange>,
    third: Option<AgeRange>,
    factor: real)

  /** JavaScript truthiness of a looked-up factor: `null` and 0 are both false. */
  predicate Truthy(f: Option<real>)
  {
    f.Some? && f.value != 0.0
  }

  function Present(r: Option<AgeRange>): seq<AgeRange>
  {
    if r.Some? then [r.value] else []
  }

  /** The three interval columns with the empty ones dropped (`filter(Boolean)`), in column order. */
  function Intervals(row: MultiplierRow): seq<AgeRange>
  {
    Present(row.first) + Present(row.second) + Present(row.third)
  }

  /** A nightly rate row; period bounds are day numbers, both inclusive. */
  datatype RateRow = RateRow(
    hotelId: int,
    hotelName: string,
    roomType: string,
    periodStart: int,
    periodEnd: int,
    concept: string,
    price: real,
    currency: string)

  datatype HotelInfo = HotelInfo(hotelId: int, hotelName: string, location: string)
}

=== FILE: factor_selection.dfy ===
/**
 * How the live request path picks the factor for one room type: the whole
 * party in one room when that has a non-zero factor, otherwise the first
 * bounded split whose every room has a multiplier row, with the sum of the
 * rooms' factors.
 */
module FactorSelection {
  import opened Wrappers
  import opened SeqUtil
  import opened Guests
  import opened Catalog
  import opened CarpanLookup
  import opened RoomCombinations

  datatype Selection = Selection(roomCount: nat, factor: real)

  function RoomFactor(carpans: seq<MultiplierRow>, hotelId: int, roomType: string, room: GuestGroup): Option<real>
  {
    FindCarpan(carpans, hotelId, roomType, room.adults, room.children, room.childAges)
  }

  /** `combo.every(room => findCarpan(...))`: a row exists for every room (its factor may be 0). */
  predicate AllRoomsMatch(carpans: seq<MultiplierRow>, hotelId: int, roomType: string, combo: seq<GuestGroup>)
  {
    forall k :: 0 <= k < |combo| ==> RoomFactor(carpans, hotelId, roomType, combo[k]).Some?
  }

  /** The `reduce` over the rooms' factors, a missing one counting 0. */
  function FactorSum(carpans: seq<MultiplierRow>, hotelId: int, roomType: string, combo: seq<GuestGroup>): real
  {
    if combo == [] then 0.0
    else
      var f := RoomFactor(carpans, hotelId, roomType, combo[0]);
      (if f.Some? then f.value else 0.0) + FactorSum(carpans, hotelId, roomType, combo[1..])
  }

  /** Index of the first bounded split whose every room has a row (`allCombos.find`). */
  function FirstMatchedSplit(carpans: seq<MultiplierRow>, hotelId: int, roomType: string, party: GuestGroup): Option<nat>
  {
    FirstIndex(Combinations(party.adults, party.children, party.childAges),
               combo => AllRoomsMatch(carpans, hotelId, roomType, combo))
  }

  /**
   * The room count and total factor for one room type, `None` when the
   * offering is skipped (`if (!toplamCarpan) continue`).
   */
  function SelectFactor(carpans: seq<MultiplierRow>, hotelId: int, roomType: string, party: GuestGroup): (r: Option<Selection>)
    ensures r.Some? ==> r.value.factor != 0.0 && 1 <= r.value.roomCount <= 3
    ensures Truthy(RoomFactor(carpans, hotelId, roomType, party)) ==>
      r == Some(Selection(1, RoomFactor(carpans, hotelId, roomType, party).value))
  {
    var single := RoomFactor(carpans, hotelId, roomType, party);
    if Truthy(single) then Some(Selection(1, single.value))
    else
      var combos := Combinations(party.adults, party.children, party.childAges);
      match FirstMatchedSplit(carpans, hotelId, roomType, party)
      case None => None
      case Some(i) =>
        CombinationsSound(party.adults, party.children, party.childAges);
        assert combos[i] in combos;
        var total := FactorSum(carpans, hotelId, roomType, combos[i]);
        if total != 0.0 then Some(Selection(|combos[i]|, total)) else None
  }

  /** `combos[i]` is the split `find` stops at: every room has a row, and no earlier split has that. */
  predicate FirstMatch(carpans: seq<MultiplierRow>, hotelId: int, roomType: string, combos: seq<seq<GuestGroup>>, i: int)
  {
    && 0 <= i < |combos|
    && AllRoomsMatch(carpans, hotelId, roomType, combos[i])
    && forall j :: 0 <= j < i ==> !AllRoomsMatch(carpans, hotelId, roomType, combos[j])
  }

  /**
   * When the single room has no usable factor, a selection is made from the
   * first bounded split whose every room has a row: its room count is the
   * number of rooms and its factor the sum of theirs.
   */
  lemma SelectionIsFirstMatchedSplit(carpans: seq<MultiplierRow>, hotelId: int, roomType: string, party: GuestGroup)
    requires !Truthy(RoomFactor(carpans, hotelId, roomType, party))
    requires SelectFactor(carpans, hotelId, roomType, party).Some?
    ensures
      var combos := Combinations(party.adults, party.children, party.childAges);
      exists i :: && FirstMatch(carpans, hotelId, roomType, combos, i)
                  && SelectFactor(carpans, hotelId, roomType, party).value
                     == Selection(|combos[i]|, FactorSum(carpans, hotelId, roomType, combos[i]))
  {
    var combos := Combinations(party.adults, party.children, party.childAges);
    var i := FirstMatchedSplit(carpans, hotelId, roomType, party).value;
    assert FirstMatch(carpans, hotelId, roomType, combos, i);
  }

  /**
   * When the single room has no usable factor, the room type is skipped
   * exactly when no bounded split has a row for every room, or the first one
   * that does has factors adding up to 0.
   */
  lemma NoSelectionWhenNoSplitMatches(carpans: seq<MultiplierRow>, hotelId: int, roomType: string, party: GuestGroup)
    requires !Truthy(RoomFactor(carpans, hotelId, roomType, party))
    ensures
      var combos := Combinations(party.adults, party.children, party.childAges);
      SelectFactor(carpans, hotelId, roomType, party).None? <==>
        forall i :: FirstMatch(carpans, hotelId, roomType, combos, i) ==>
          FactorSum(carpans, hotelId, roomType, combos[i]) == 0.0
  {
    var combos := Combinations(party.adults, party.children, party.childAges);
    match FirstMatchedSplit(carpans, hotelId, roomType, party)
    case None =>
      forall i | FirstMatch(carpans, hotelId, roomType, combos, i)
        ensures false
      {
      }
    case Some(i) =>
      forall i' | FirstMatch(carpans, hotelId, roomType, combos, i')
        ensures i' == i
      {
      }
  }

  /**
   * When no row exists for the whole party in one room, a selection can only
   * come from a split of the party into two or three rooms.
   */
  lemma SelectionWithoutSingleRowIsMultiRoom(carpans: seq<MultiplierRow>, hotelId: int, roomType: string, party: GuestGroup)
    requires RoomFactor(carpans, hotelId, roomType, party).None?
    requires SelectFactor(carpans, hotelId, roomType, party).Some?
    ensures
      var combos := Combinations(party.adults, party.children, party.childAges);
      exists i :: && FirstMatch(carpans, hotelId, roomType, combos, i)
                  && MultiRoomSplit(combos[i], party.adults, party.children, party.childAges)
                  && SelectFactor(carpans, hotelId, roomType, party).value.roomCount == |combos[i]|
  {
    var combos := Combinations(party.adults, party.children, party.childAges);
    CombinationsSound(party.adults, party.children, party.childAges);
    var i := FirstMatchedSplit(carpans, hotelId, roomType, party).value;
    assert FirstMatch(carpans, hotelId, roomType, combos, i);
    assert combos[i] in combos;
    assert !AllRoomsMatch(carpans, hotelId, roomType, [party]);
  }

  /**
   * A single-room row with factor 0 drops the room type: the fallback's first
   * split is that same single room, whose row exists, so the sum is 0 again.
   */
  lemma ZeroSingleFactorDropsOffering(carpans: seq<MultiplierRow>, hotelId: int, roomType: string, party: GuestGroup)
    requires RoomFactor(carpans, hotelId, roomType, party) == Some(0.0)
    ensures SelectFactor(carpans, hotelId, roomType, party) == None
  {
    var combos := Combinations(party.adults, party.children, party.childAges);
    assert combos[0] == [party];
    assert [party][1..] == [];
    assert AllRoomsMatch(carpans, hotelId, roomType, combos[0]);
    assert FactorSum(carpans, hotelId, roomType, combos[0]) == 0.0;
  }
}

=== FILE: guest_normalization.dfy ===
/**
 * The hotel's child-age ceiling (`getMaxCocukYasi`) and the reclassification
 * of older children as adults (`normalizeGuests`).
 */
module GuestNormalization {
  import opened Wrappers
  import opened Catalog
  import opened SeqUtil

  /** Ceiling used when the hotel's rows give no upper bound. */
  const DefaultMaxChildAge: real := 11.0

  /**
   * The upper bound `getMaxCocukYasi` reads from one interval: a missing or
   * empty second part reads as "0" and gives 0; one that does not parse is
   * dropped.
   */
  function UpperBounds(r: AgeRange): seq<real>
  {
    match r.hi
    case Num(v) => [v]
    case Absent => [0.0]
    case NaN => []
  }

  function UpperBoundsOf(ranges: seq<AgeRange>): seq<real>
  {
    if ranges == [] then [] else UpperBounds(ranges[0]) + UpperBoundsOf(ranges[1..])
  }

  lemma {:induction false} UpperBoundsOfMembers(ranges: seq<AgeRange>, x: real)
    ensures x in UpperBoundsOf(ranges) <==> exists j :: 0 <= j < |ranges| && x in UpperBounds(ranges[j])
  {
    if ranges != [] {
      UpperBoundsOfMembers(ranges[1..], x);
      assert forall j :: 1 <= j < |ranges| ==> ranges[j] == ranges[1..][j - 1];
      if x in UpperBoundsOf(ranges[1..]) {
        var j :| 0 <= j < |ranges[1..]| && x in UpperBounds(ranges[1..][j]);
        assert x in UpperBounds(ranges[j + 1]);
      }
    }
  }

  /** The upper bounds one row contributes: those of its intervals when it belongs to the hotel. */
  function RowBounds(row: MultiplierRow, hotelId: int): seq<real>
  {
    if row.hotelId == hotelId then UpperBoundsOf(Intervals(row)) else []
  }

  /** Every upper bound of every interval of the hotel's multiplier rows, in table order. */
  function CeilingCandidates(carpans: seq<MultiplierRow>, hotelId: int): seq<real>
  {
    if carpans == [] then [] else RowBounds(carpans[0], hotelId) + CeilingCandidates(carpans[1..], hotelId)
  }

  /**
   * A number is a candidate ceiling iff a row of the hotel contributes it
   * (and, by `UpperBoundsOfMembers`, iff one interval of that row does).
   */
  lemma {:induction false} CeilingCandidatesMembers(carpans: seq<MultiplierRow>, hotelId: int, x: real)
    ensures x in CeilingCandidates(carpans, hotelId) <==> exists k :: 0 <= k < |carpans| && x in RowBounds(carpans[k], hotelId)
  {
    if carpans != [] {
      var rest := CeilingCandidates(carpans[1..], hotelId);
      CeilingCandidatesMembers(carpans[1..], hotelId, x);
      InConcat(x, RowBounds(carpans[0], hotelId), rest);
      if exists k :: 0 <= k < |carpans| && x in RowBounds(carpans[k], hotelId) {
        var k :| 0 <= k < |carpans| && x in RowBounds(carpans[k], hotelId);
        if k > 0 {
          assert carpans[1..][k - 1] == carpans[k];
        }
      }
      if x in rest {
        var k :| 0 <= k < |carpans[1..]| && x in RowBounds(carpans[1..][k], hotelId);
        assert carpans[1..][k] == carpans[k + 1];
      }
    }
  }

  function Max(xs: seq<real>): (m: real)
    requires xs != []
    ensures m in xs && forall x :: x in xs ==> x <= m
  {
    if |xs| == 1 then xs[0]
    else
      var m := Max(xs[1..]);
      assert forall x :: x in xs ==> x == xs[0] || x in xs[1..];
      if xs[0] >= m then xs[0] else m
  }

  /** `getMaxCocukYasi`: the largest upper bound over the hotel's intervals, 11 when there is none. */
  function MaxChildAge(carpans: seq<MultiplierRow>, hotelId: int): (m: real)
    ensures CeilingCandidates(carpans, hotelId) == [] ==> m == DefaultMaxChildAge
    ensures CeilingCandidates(carpans, hotelId) != [] ==>
      m in CeilingCandidates(carpans, hotelId) && forall x :: x in CeilingCandidates(carpans, hotelId) ==> x <= m
  {
    var xs := CeilingCandidates(carpans, hotelId);
    if xs == [] then DefaultMaxChildAge else Max(xs)
  }

  /** The ages that stay children: those not above the ceiling, in their original order. */
  function KeptAges(ages: seq<real>, ceiling: real): seq<real>
  {
    if ages == [] then []
    else KeptAges(ages[..|ages| - 1], ceiling) + (if ages[|ages| - 1] > ceiling then [] else [ages[|ages| - 1]])
  }

  /** The ages that are moved to the adult count. */
  function DroppedAges(ages: seq<real>, ceiling: real): seq<real>
  {
    if ages == [] then []
    else DroppedAges(ages[..|ages| - 1], ceiling) + (if ages[|ages| - 1] > ceiling then [ages[|ages| - 1]] else [])
  }

  /**
   * Keeping is an order-preserving filter: it distributes over concatenation,
   * keeps exactly the ages at or below the ceiling and drops only ages above it.
   */
  lemma {:induction false} KeptAgesAppend(s: seq<real>, t: seq<real>, ceiling: real)
    ensures KeptAges(s + t, ceiling) == KeptAges(s, ceiling) + KeptAges(t, ceiling)
    ensures DroppedAges(s + t, ceiling) == DroppedAges(s, ceiling) + DroppedAges(t, ceiling)
    decreases |t|
  {
    if t == [] {
      assert s + t == s;
    } else {
      var t' := t[..|t| - 1];
      assert (s + t)[..|s + t| - 1] == s + t';
      KeptAgesAppend(s, t', ceiling);
    }
  }

  lemma {:induction false} KeptAgesBounded(ages: seq<real>, ceiling: real)
    ensures forall x :: x in KeptAges(ages, ceiling) ==> x <= ceiling
    ensures forall x :: x in DroppedAges(ages, ceiling) ==> x > ceiling
  {
    if ages != [] {
      var init := ages[..|ages| - 1];
      var x := ages[|ages| - 1];
      KeptAgesBounded(init, ceiling);
      var kept, dropped := KeptAges(init, ceiling), DroppedAges(init, ceiling);
      if x > ceiling {
        assert KeptAges(ages, ceiling) == kept;
        assert DroppedAges(ages, ceiling) == dropped + [x];
      } else {
        assert KeptAges(ages, ceiling) == kept + [x];
        assert DroppedAges(ages, ceiling) == dropped;
      }
    }
  }

  lemma {:induction false} KeptAndDropped(ages: seq<real>, ceiling: real)
    ensures multiset(KeptAges(ages, ceiling)) + multiset(DroppedAges(ages, ceiling)) == multiset(ages)
    ensures |KeptAges(ages, ceiling)| + |DroppedAges(ages, ceiling)| == |ages|
  {
    if ages != [] {
      var init := ages[..|ages| - 1];
      var x := ages[|ages| - 1];
      KeptAndDropped(init, ceiling);
      assert ages == init + [x];
      KeptAgesAppend(init, [x], ceiling);
      OneAge(x, ceiling);
    }
  }

  /** A single age is either kept or dropped. */
  lemma OneAge(x: real, ceiling: real)
    ensures multiset(KeptAges([x], ceiling)) + multiset(DroppedAges([x], ceiling)) == multiset{x}
    ensures |KeptAges([x], ceiling)| + |DroppedAges([x], ceiling)| == 1
  {
    assert [x][..0] == [];
  }

  /**
   * `normalizeGuests`: children above the hotel's ceiling become adults. The
   * `children` argument is not used; the counts come from `childAges`.
   */
  method NormalizeGuests(carpans: seq<MultiplierRow>, hotelId: int, adults: nat, children: int, childAges: seq<real>)
    returns (finalAdults: nat, finalChildren: nat, finalChildAges: seq<real>)
    ensures finalChildAges == KeptAges(childAges, MaxChildAge(carpans, hotelId))
    ensures finalAdults == adults + |DroppedAges(childAges, MaxChildAge(carpans, hotelId))|
    ensures finalChildren == |finalChildAges|
    ensures finalAdults + finalChildren == adults + |childAges|
  {
    var maxYas := MaxChildAge(carpans, hotelId);
    finalAdults, finalChildren, finalChildAges := ReclassifyAges(adults, childAges, maxYas);
  }

  /** The loop of `normalizeGuests` over the ages, against a given ceiling. */
  method ReclassifyAges(adults: nat, childAges: seq<real>, maxYas: real)
    returns (finalAdults: nat, finalChildren: nat, finalChildAges: seq<real>)
    ensures finalChildAges == KeptAges(childAges, maxYas)
    ensures finalAdults == adults + |DroppedAges(childAges, maxYas)|
    ensures finalChildren == |finalChildAges|
    ensures finalAdults + finalChildren == adults + |childAges|
  {
    finalAdults := adults;
    finalChildren := 0;
    finalChildAges := [];
    var i := 0;
    while i < |childAges|
      invariant 0 <= i <= |childAges|
      invariant finalChildAges == KeptAges(childAges[..i], maxYas)
      invariant finalAdults == adults + |DroppedAges(childAges[..i], maxYas)|
      invariant finalChildren == |finalChildAges|
      invariant finalAdults + finalChildren == adults + i
    {
      var yas := childAges[i];
      ghost var next := childAges[..i + 1];
      assert next[..|next| - 1] == childAges[..i] && next[|next| - 1] == yas;
      if yas > maxYas {
        finalAdults := finalAdults + 1;
      } else {
        finalChildren := finalChildren + 1;
        finalChildAges := finalChildAges + [yas];
      }
      i := i + 1;
    }
    assert childAges[..i] == childAges;
  }
}

=== FILE: guests.dfy ===
/**
 * A party or one room's share of it (`GuestGroup`), and what it means for a
 * sequence of rooms to split a party.
 */
module Guests {

  datatype GuestGroup = GuestGroup(adults: nat, children: nat, childAges: seq<real>)

  /** The child count agrees with the list of ages. */
  predicate WellFormed(g: GuestGroup)
  {
    g.children == |g.childAges|
  }

  function SumAdults(rooms: seq<GuestGroup>): nat
  {
    if rooms == [] then 0 else rooms[0].adults + SumAdults(rooms[1..])
  }

  function SumChildren(rooms: seq<GuestGroup>): nat
  {
    if rooms == [] then 0 else rooms[0].children + SumChildren(rooms[1..])
  }

  function ConcatAges(rooms: seq<GuestGroup>): seq<real>
  {
    if rooms == [] then [] else rooms[0].childAges + ConcatAges(rooms[1..])
  }

  /** Every room has an adult, and the rooms' adults and children add up to the party's. */
  predicate SplitsCounts(rooms: seq<GuestGroup>, party: GuestGroup)
  {
    && (forall k :: 0 <= k < |rooms| ==> rooms[k].adults >= 1)
    && SumAdults(rooms) == party.adults
    && SumChildren(rooms) == party.children
  }

  /** Every room is well formed and the rooms' ages, read in room order, are the party's ages. */
  predicate SplitsAges(rooms: seq<GuestGroup>, party: GuestGroup)
  {
    && (forall k :: 0 <= k < |rooms| ==> WellFormed(rooms[k]))
    && ConcatAges(rooms) == party.childAges
  }

  /** `rooms` is one way to put `party` into rooms: the notion of a partition used throughout. */
  predicate IsPartitionOf(rooms: seq<GuestGroup>, party: GuestGroup)
  {
    SplitsCounts(rooms, party) && SplitsAges(rooms, party)
  }

  /** Sums and concatenation of one room followed by others. */
  lemma SplitsCons(room: GuestGroup, rest: seq<GuestGroup>)
    ensures SumAdults([room] + rest) == room.adults + SumAdults(rest)
    ensures SumChildren([room] + rest) == room.children + SumChildren(rest)
    ensures ConcatAges([room] + rest) == room.childAges + ConcatAges(rest)
  {
    assert ([room] + rest)[1..] == rest;
  }

  /** The sums and the concatenation written out for rooms of two and three. */
  lemma SmallSplits(rooms: seq<GuestGroup>)
    requires 2 <= |rooms| <= 3
    ensures |rooms| == 2 ==> && SumAdults(rooms) == rooms[0].adults + rooms[1].adults
                             && SumChildren(rooms) == rooms[0].children + rooms[1].children
                             && ConcatAges(rooms) == rooms[0].childAges + rooms[1].childAges
    ensures |rooms| == 3 ==> && SumAdults(rooms) == rooms[0].adults + rooms[1].adults + rooms[2].adults
                             && SumChildren(rooms) == rooms[0].children + rooms[1].children + rooms[2].children
                             && ConcatAges(rooms) == rooms[0].childAges + rooms[1].childAges + rooms[2].childAges
  {
    if |rooms| == 2 {
      assert rooms == [rooms[0], rooms[1]];
      PairSplits(rooms[0], rooms[1]);
    } else {
      assert rooms == [rooms[0], rooms[1], rooms[2]];
      TripleSplits(rooms[0], rooms[1], rooms[2]);
    }
  }

  lemma PairSplits(r0: GuestGroup, r1: GuestGroup)
    ensures SumAdults([r0, r1]) == r0.adults + r1.adults
    ensures SumChildren([r0, r1]) == r0.children + r1.children
    ensures ConcatAges([r0, r1]) == r0.childAges + r1.childAges
  {
    assert [r0, r1][1..] == [r1];
    OneRoom(r1);
  }

  /** The sums and the concatenation of a single room are its own. */
  lemma OneRoom(room: GuestGroup)
    ensures SumAdults([room]) == room.adults && SumChildren([room]) == room.children && ConcatAges([room]) == room.childAges
  {
    assert [room][1..] == [];
    assert room.childAges + [] == room.childAges;
  }

  lemma TripleSplits(r0: GuestGroup, r1: GuestGroup, r2: GuestGroup)
    ensures SumAdults([r0, r1, r2]) == r0.adults + r1.adults + r2.adults
    ensures SumChildren([r0, r1, r2]) == r0.children + r1.children + r2.children
    ensures ConcatAges([r0, r1, r2]) == r0.childAges + r1.childAges + r2.childAges
  {
    assert [r0, r1, r2][1..] == [r1, r2];
    PairSplits(r1, r2);
    assert r0.childAges + (r1.childAges + r2.childAges) == r0.childAges + r1.childAges + r2.childAges;
  }
}

=== FILE: hotel_offerings.dfy ===
/**
 * The per-hotel pass over its rate rows: each row is priced unless an
 * offering with the same `roomType|concept` key was already accepted, and
 * the key is remembered only once a row with it yields an offering.
 */
module HotelOfferings {
  import opened Wrappers
  import opened Catalog
  import opened Guests
  import opened StayPricing

  /** The offering a rate row yields for the hotel's party and nights. */
  function HotelOffer(carpans: seq<MultiplierRow>, hotelId: int, rows: seq<RateRow>, party: GuestGroup, nights: seq<int>): RateRow -> Option<Offering>
  {
    row => OfferFor(carpans, hotelId, rows, row, party, nights)
  }

  /** The deduplication key, a plain string join (distinct pairs can share one when a name holds '|'). */
  function ComboKey(roomType: string, concept: string): string
  {
    roomType + "|" + concept
  }

  function RowKey(row: RateRow): string
  {
    ComboKey(row.roomType, row.concept)
  }

  function OfferKey(o: Offering): string
  {
    ComboKey(o.roomType, o.concept)
  }

  /** An offering carries the room type and concept of the row it comes from. */
  ghost predicate KeepsKey(offer: RateRow -> Option<Offering>)
  {
    forall row :: offer(row).Some? ==> OfferKey(offer(row).value) == RowKey(row)
  }

  /** Offerings priced for a hotel carry their row's room type and concept, so the key is that of the row. */
  lemma HotelOfferKeepsKey(carpans: seq<MultiplierRow>, hotelId: int, rows: seq<RateRow>, party: GuestGroup, nights: seq<int>)
    ensures KeepsKey(HotelOffer(carpans, hotelId, rows, party, nights))
  {
    var offer := HotelOffer(carpans, hotelId, rows, party, nights);
    forall row | offer(row).Some?
      ensures OfferKey(offer(row).value) == RowKey(row)
    {
      assert offer(row) == OfferFor(carpans, hotelId, rows, row, party, nights);
    }
  }

  /** The loop state after a prefix of the rows: the keys already offered and the offerings in order. */
  datatype Acceptance = Acceptance(unique: set<string>, offerings: seq<Offering>)

  function AcceptRows(offer: RateRow -> Option<Offering>, scanned: seq<RateRow>): Acceptance
  {
    if scanned == [] then Acceptance({}, [])
    else
      var before := AcceptRows(offer, scanned[..|scanned| - 1]);
      var row := scanned[|scanned| - 1];
      if RowKey(row) in before.unique then before
      else match offer(row)
        case None => before
        case Some(o) => Acceptance(before.unique + {RowKey(row)}, before.offerings + [o])
  }

  /** A row offers for the hotel: its key has some row at index below `n` whose offering exists. */
  predicate KeyOffered(offer: RateRow -> Option<Offering>, scanned: seq<RateRow>, n: int, key: string)
  {
    exists j :: 0 <= j < n && j < |scanned| && RowKey(scanned[j]) == key && offer(scanned[j]).Some?
  }

  /** A key is remembered exactly when some scanned row with that key yields an offering. */
  lemma {:induction false} UniqueIsOfferedKeys(offer: RateRow -> Option<Offering>, scanned: seq<RateRow>, k: string)
    ensures k in AcceptRows(offer, scanned).unique <==> KeyOffered(offer, scanned, |scanned|, k)
  {
    if scanned != [] {
      var pre := scanned[..|scanned| - 1];
      var row := scanned[|scanned| - 1];
      UniqueIsOfferedKeys(offer, pre, k);
      UniqueIsOfferedKeys(offer, pre, RowKey(row));
      if KeyOffered(offer, scanned, |scanned|, k) {
        var j :| 0 <= j < |scanned| && RowKey(scanned[j]) == k && offer(scanned[j]).Some?;
        if j < |pre| {
          assert scanned[j] == pre[j];
          assert KeyOffered(offer, pre, |pre|, k);
        }
      }
      if KeyOffered(offer, pre, |pre|, k) {
        var j :| 0 <= j < |pre| && RowKey(pre[j]) == k && offer(pre[j]).Some?;
        assert scanned[j] == pre[j];
      }
    }
  }

  /** The remembered keys are those of the offerings, and no two offerings share a key. */
  lemma {:induction false} OfferingKeysDistinct(offer: RateRow -> Option<Offering>, scanned: seq<RateRow>)
    requires KeepsKey(offer)
    ensures forall k :: k in AcceptRows(offer, scanned).unique <==>
      exists i :: 0 <= i < |AcceptRows(offer, scanned).offerings| && OfferKey(AcceptRows(offer, scanned).offerings[i]) == k
    ensures forall i, j :: 0 <= i < j < |AcceptRows(offer, scanned).offerings| ==>
      OfferKey(AcceptRows(offer, scanned).offerings[i]) != OfferKey(AcceptRows(offer, scanned).offerings[j])
  {
    if scanned != [] {
      var pre := scanned[..|scanned| - 1];
      var row := scanned[|scanned| - 1];
      OfferingKeysDistinct(offer, pre);
      var before := AcceptRows(offer, pre);
      if RowKey(row) !in before.unique && offer(row).Some? {
        var o := offer(row).value;
        assert OfferKey(o) == RowKey(row);
        var after := AcceptRows(offer, scanned);
        assert after == Acceptance(before.unique + {RowKey(row)}, before.offerings + [o]);
        forall i | 0 <= i < |before.offerings|
          ensures after.offerings[i] == before.offerings[i]
        {
        }
        forall k
          ensures k in after.unique <==> exists i :: 0 <= i < |after.offerings| && OfferKey(after.offerings[i]) == k
        {
          if k == RowKey(row) {
            assert OfferKey(after.offerings[|before.offerings|]) == k;
          }
        }
      }
    }
  }

  /** Row `i` yields an offering and no earlier row with its key does. */
  predicate OffersFirst(offer: RateRow -> Option<Offering>, scanned: seq<RateRow>, i: int)
  {
    0 <= i < |scanned| && offer(scanned[i]).Some? && !KeyOffered(offer, scanned, i, RowKey(scanned[i]))
  }

  /** Appending a row keeps the earlier rows' standing and adds the new row's. */
  lemma OffersFirstStep(offer: RateRow -> Option<Offering>, scanned: seq<RateRow>, i: int)
    requires scanned != []
    ensures OffersFirst(offer, scanned, i) <==>
      if i < |scanned| - 1 then OffersFirst(offer, scanned[..|scanned| - 1], i)
      else i == |scanned| - 1 && offer(scanned[i]).Some?
           && !KeyOffered(offer, scanned[..|scanned| - 1], |scanned| - 1, RowKey(scanned[i]))
  {
    var pre := scanned[..|scanned| - 1];
    if 0 <= i < |scanned| {
      var key := RowKey(scanned[i]);
      if KeyOffered(offer, scanned, i, key) {
        var j :| 0 <= j < i && j < |scanned| && RowKey(scanned[j]) == key && offer(scanned[j]).Some?;
        assert pre[j] == scanned[j];
      }
      if KeyOffered(offer, pre, i, key) {
        var j :| 0 <= j < i && j < |pre| && RowKey(pre[j]) == key && offer(pre[j]).Some?;
        assert pre[j] == scanned[j];
      }
    }
  }

  /**
   * The offerings are exactly those of the rows with no earlier offering for
   * the same key: the first row per key that yields one.
   */
  lemma {:induction false} AcceptedExactly(offer: RateRow -> Option<Offering>, scanned: seq<RateRow>, o: Offering)
    ensures o in AcceptRows(offer, scanned).offerings <==>
      exists i :: OffersFirst(offer, scanned, i) && offer(scanned[i]) == Some(o)
  {
    if scanned != [] {
      var pre := scanned[..|scanned| - 1];
      var last := |scanned| - 1;
      var row := scanned[last];
      AcceptedExactly(offer, pre, o);
      UniqueIsOfferedKeys(offer, pre, RowKey(row));
      forall i
        ensures OffersFirst(offer, scanned, i) <==>
          if i < last then OffersFirst(offer, pre, i)
          else i == last && offer(row).Some? && !KeyOffered(offer, pre, |pre|, RowKey(row))
      {
        OffersFirstStep(offer, scanned, i);
      }
      if exists i :: OffersFirst(offer, scanned, i) && offer(scanned[i]) == Some(o) {
        var i :| OffersFirst(offer, scanned, i) && offer(scanned[i]) == Some(o);
        if i < last {
          assert pre[i] == scanned[i];
        }
      }
      if exists i :: OffersFirst(offer, pre, i) && offer(pre[i]) == Some(o) {
        var i :| OffersFirst(offer, pre, i) && offer(pre[i]) == Some(o);
        assert pre[i] == scanned[i];
        assert OffersFirst(offer, scanned, i);
      }
    }
  }

  /** Every accepted offering is what some scanned row yields. */
  lemma AcceptedFromRow(offer: RateRow -> Option<Offering>, scanned: seq<RateRow>, o: Offering) returns (row: RateRow)
    requires o in AcceptRows(offer, scanned).offerings
    ensures row in scanned && offer(row) == Some(o)
  {
    AcceptedExactly(offer, scanned, o);
    var j :| OffersFirst(offer, scanned, j) && offer(scanned[j]) == Some(o);
    row := scanned[j];
  }

  /** The row loop of one hotel, as the handler runs it. */
  method PriceHotel(carpans: seq<MultiplierRow>, hotelId: int, rows: seq<RateRow>,
                    adults: nat, children: int, childAges: seq<real>, nights: seq<int>) returns (offerings: seq<Offering>)
    ensures offerings == AcceptRows(HotelOffer(carpans, hotelId, rows, NormalizedParty(carpans, hotelId, adults, childAges), nights), rows).offerings
  {
    ghost var offer := HotelOffer(carpans, hotelId, rows, NormalizedParty(carpans, hotelId, adults, childAges), nights);
    var unique: set<string> := {};
    offerings := [];
    var i := 0;
    while i < |rows|
      invariant 0 <= i <= |rows|
      invariant AcceptRows(offer, rows[..i]) == Acceptance(unique, offerings)
    {
      var row := rows[i];
      ghost var next := rows[..i + 1];
      assert next[..|next| - 1] == rows[..i] && next[|next| - 1] == row;
      var key := ComboKey(row.roomType, row.concept);
      if key !in unique {
        var priced := PriceRow(carpans, hotelId, rows, row, adults, children, childAges, nights);
        assert offer(row) == priced;
        if priced.Some? {
          offerings := offerings + [priced.value];
          unique := unique + {key};
        }
      }
      i := i + 1;
    }
    assert rows[..i] == rows;
  }
}

=== FILE: price_request.dfy ===
/**
 * The price request: the rate rows are grouped per hotel (optionally only one
 * hotel), and every group becomes a quote with the hotel's display name, its
 * location and its offerings for the stay.
 */
module RequestPricing {
  import opened Wrappers
  import opened SeqUtil
  import opened Catalog
  import opened StayPricing
  import opened HotelOfferings
  import opened FactorSelection

  /** The request body, with the dates as day numbers. */
  datatype Request = Request(
    checkin: int,
    checkout: int,
    adults: nat,
    children: int,
    childAges: seq<real>,
    hotelFilter: Option<int>)

  /** The group a rate row belongs to: the hotel id together with the hotel name. */
  datatype HotelKey = HotelKey(id: int, name: string)

  function KeyOfRow(row: RateRow): HotelKey
  {
    HotelKey(row.hotelId, row.hotelName)
  }

  /** A row takes part unless a (non-zero) hotel filter names another hotel. */
  predicate Kept(filter: Option<int>, row: RateRow)
  {
    !(filter.Some? && filter.value != 0 && row.hotelId != filter.value)
  }

  /** The keys after one more row: its key is appended when the filter keeps it and the key is new. */
  function AddKey(keys: seq<HotelKey>, filter: Option<int>, row: RateRow): seq<HotelKey>
  {
    if Kept(filter, row) && KeyOfRow(row) !in keys then keys + [KeyOfRow(row)] else keys
  }

  /** The groups in the order their first row appears. */
  function HotelKeys(rates: seq<RateRow>, filter: Option<int>): seq<HotelKey>
  {
    if rates == [] then [] else AddKey(HotelKeys(rates[..|rates| - 1], filter), filter, rates[|rates| - 1])
  }

  /** The groups are the keys of the rows the filter keeps, each listed once. */
  lemma {:induction false} HotelKeysMembers(rates: seq<RateRow>, filter: Option<int>)
    ensures forall k :: k in HotelKeys(rates, filter) <==>
      exists i :: 0 <= i < |rates| && Kept(filter, rates[i]) && KeyOfRow(rates[i]) == k
    ensures forall i, j :: 0 <= i < j < |HotelKeys(rates, filter)| ==> HotelKeys(rates, filter)[i] != HotelKeys(rates, filter)[j]
  {
    if rates != [] {
      var pre := rates[..|rates| - 1];
      var row := rates[|rates| - 1];
      HotelKeysMembers(pre, filter);
      assert forall i :: 0 <= i < |pre| ==> pre[i] == rates[i];
      var keys, preKeys := HotelKeys(rates, filter), HotelKeys(pre, filter);
      if Kept(filter, row) && KeyOfRow(row) !in preKeys {
        assert keys == preKeys + [KeyOfRow(row)];
        forall i, j | 0 <= i < j < |keys|
          ensures keys[i] != keys[j]
        {
          assert keys[i] == preKeys[i];
          if j < |preKeys| {
            assert keys[j] == preKeys[j];
          }
        }
      }
    }
  }

  /** The rows of one group, in table order. */
  function RowsOf(rates: seq<RateRow>, filter: Option<int>, key: HotelKey): seq<RateRow>
  {
    if rates == [] then []
    else
      var row := rates[|rates| - 1];
      RowsOf(rates[..|rates| - 1], filter, key) + if Kept(filter, row) && KeyOfRow(row) == key then [row] else []
  }

  /** A row is in a group exactly when the filter keeps it and it carries the group's hotel id and name. */
  lemma {:induction false} RowsOfMembers(rates: seq<RateRow>, filter: Option<int>, key: HotelKey)
    ensures forall row :: row in RowsOf(rates, filter, key) <==> row in rates && Kept(filter, row) && KeyOfRow(row) == key
  {
    if rates != [] {
      var pre := rates[..|rates| - 1];
      RowsOfMembers(pre, filter, key);
      assert rates == pre + [rates[|rates| - 1]];
    }
  }

  /** One more row extends its own group and no other. */
  lemma RowsOfStep(rates: seq<RateRow>, filter: Option<int>, key: HotelKey, i: nat)
    requires i < |rates|
    ensures RowsOf(rates[..i + 1], filter, key) ==
      RowsOf(rates[..i], filter, key) + (if Kept(filter, rates[i]) && KeyOfRow(rates[i]) == key then [rates[i]] else [])
  {
    assert rates[..i + 1][..i] == rates[..i];
  }

  /** One more row adds its key at the end when the filter keeps it and the key is new. */
  lemma HotelKeysStep(rates: seq<RateRow>, filter: Option<int>, i: nat)
    requires i < |rates|
    ensures HotelKeys(rates[..i + 1], filter) == AddKey(HotelKeys(rates[..i], filter), filter, rates[i])
  {
    assert rates[..i + 1][..i] == rates[..i];
  }

  /** A key that is not among the groups has no rows. */
  lemma {:induction false} RowsOfAbsentKey(rates: seq<RateRow>, filter: Option<int>, key: HotelKey)
    requires key !in HotelKeys(rates, filter)
    ensures RowsOf(rates, filter, key) == []
  {
    if rates != [] {
      var pre := rates[..|rates| - 1];
      assert key !in HotelKeys(pre, filter);
      RowsOfAbsentKey(pre, filter, key);
    }
  }

  /** `keys` and `grouped` are the groups of the `scanned` rows: the keys in order and the rows under each. */
  ghost predicate GroupsOf(keys: seq<HotelKey>, grouped: map<HotelKey, seq<RateRow>>, scanned: seq<RateRow>, filter: Option<int>)
  {
    && keys == HotelKeys(scanned, filter)
    && (forall k :: k in grouped <==> k in keys)
    && (forall k :: k in grouped ==> grouped[k] == RowsOf(scanned, filter, k))
  }

  /** The grouping loop: the keys in first-insertion order and the rows under each key. */
  method GroupByHotel(rates: seq<RateRow>, filter: Option<int>) returns (keys: seq<HotelKey>, grouped: map<HotelKey, seq<RateRow>>)
    ensures keys == HotelKeys(rates, filter)
    ensures forall k :: k in grouped <==> k in keys
    ensures forall k :: k in grouped ==> grouped[k] == RowsOf(rates, filter, k)
  {
    keys := [];
    grouped := map[];
    var i := 0;
    while i < |rates|
      invariant 0 <= i <= |rates|
      invariant GroupsOf(keys, grouped, rates[..i], filter)
    {
      ghost var oldKeys, oldGrouped := keys, grouped;
      keys, grouped := AddToGroup(keys, grouped, filter, rates[i]);
      GroupsStep(rates, filter, i, oldKeys, oldGrouped, keys, grouped);
      i := i + 1;
    }
    assert rates[..i] == rates;
  }

  /** Adding row `i` to the groups of the rows before it gives the groups of the rows up to it. */
  lemma {:induction false} GroupsStep(rates: seq<RateRow>, filter: Option<int>, i: nat,
                   keys: seq<HotelKey>, grouped: map<HotelKey, seq<RateRow>>,
                   keys': seq<HotelKey>, grouped': map<HotelKey, seq<RateRow>>)
    requires i < |rates| && GroupsOf(keys, grouped, rates[..i], filter)
    requires keys' == AddKey(keys, filter, rates[i])
    requires forall k :: k in grouped' <==> k in keys'
    requires forall k :: k in grouped' ==>
      grouped'[k] == (if k in grouped then grouped[k] else []) + (if Kept(filter, rates[i]) && KeyOfRow(rates[i]) == k then [rates[i]] else [])
    ensures GroupsOf(keys', grouped', rates[..i + 1], filter)
  {
    var scanned := rates[..i];
    assert keys' == HotelKeys(rates[..i + 1], filter) by {
      HotelKeysStep(rates, filter, i);
    }
    assert forall k :: k in grouped' ==> grouped'[k] == RowsOf(rates[..i + 1], filter, k) by {
      assert forall k :: k in grouped <==> k in HotelKeys(scanned, filter);
      assert forall k :: k in grouped ==> grouped[k] == RowsOf(scanned, filter, k);
      RowsGroupStep(rates, filter, i, grouped, grouped');
    }
  }

  /** The rows part of the step: each group after row `i` is its rows up to row `i`. */
  lemma RowsGroupStep(rates: seq<RateRow>, filter: Option<int>, i: nat,
                      before: map<HotelKey, seq<RateRow>>, after: map<HotelKey, seq<RateRow>>)
    requires i < |rates|
    requires forall k :: k in before <==> k in HotelKeys(rates[..i], filter)
    requires forall k :: k in before ==> before[k] == RowsOf(rates[..i], filter, k)
    requires forall k :: k in after ==>
      after[k] == (if k in before then before[k] else []) + (if Kept(filter, rates[i]) && KeyOfRow(rates[i]) == k then [rates[i]] else [])
    ensures forall k :: k in after ==> after[k] == RowsOf(rates[..i + 1], filter, k)
  {
    forall k | k in after
      ensures after[k] == RowsOf(rates[..i + 1], filter, k)
    {
      RowsOfStep(rates, filter, k, i);
      if k !in before {
        RowsOfAbsentKey(rates[..i], filter, k);
      }
    }
  }

  /** The body of the grouping loop: a kept row opens its group if needed and joins it. */
  method AddToGroup(keys: seq<HotelKey>, grouped: map<HotelKey, seq<RateRow>>, filter: Option<int>, row: RateRow)
    returns (keys': seq<HotelKey>, grouped': map<HotelKey, seq<RateRow>>)
    requires forall k :: k in grouped <==> k in keys
    ensures keys' == AddKey(keys, filter, row)
    ensures forall k :: k in grouped' <==> k in keys'
    ensures forall k :: k in grouped' ==>
      grouped'[k] == (if k in grouped then grouped[k] else []) + (if Kept(filter, row) && KeyOfRow(row) == k then [row] else [])
  {
    keys', grouped' := keys, grouped;
    if Kept(filter, row) {
      var key := KeyOfRow(row);
      if key !in grouped' {
        keys' := keys' + [key];
        grouped' := grouped'[key := []];
      }
      grouped' := grouped'[key := grouped'[key] + [row]];
    }
  }

  /** The part of a name before its first '|', which is what splitting the group key yields. */
  function NameBeforeBar(name: string): (t: string)
    ensures t <= name
    ensures '|' !in t
    ensures |t| < |name| ==> name[|t|] == '|'
  {
    if name == [] || name[0] == '|' then [] else [name[0]] + NameBeforeBar(name[1..])
  }

  /** The location of the first hotel record with the id, or the empty text when there is none. */
  function LocationOf(hotels: seq<HotelInfo>, id: int): (location: string)
    ensures (forall k :: 0 <= k < |hotels| ==> hotels[k].hotelId != id) ==> location == ""
    ensures (exists k :: 0 <= k < |hotels| && hotels[k].hotelId == id) ==>
      exists k :: && 0 <= k < |hotels| && hotels[k].hotelId == id
                  && (forall j :: 0 <= j < k ==> hotels[j].hotelId != id)
                  && location == hotels[k].location
  {
    match FirstIndex(hotels, (h: HotelInfo) => h.hotelId == id)
    case None => ""
    case Some(k) => hotels[k].location
  }

  /** The quote for one group. */
  datatype HotelQuote = HotelQuote(name: string, location: string, offerings: seq<Offering>)

  /** The offering function of one group: its own rows, its party and the stay's nights. */
  function GroupOffer(req: Request, rates: seq<RateRow>, carpans: seq<MultiplierRow>, key: HotelKey): RateRow -> Option<Offering>
  {
    HotelOffer(carpans, key.id, RowsOf(rates, req.hotelFilter, key),
               NormalizedParty(carpans, key.id, req.adults, req.childAges), NightsOf(req.checkin, req.checkout))
  }

  function QuoteFor(req: Request, rates: seq<RateRow>, carpans: seq<MultiplierRow>, hotels: seq<HotelInfo>, key: HotelKey): HotelQuote
  {
    HotelQuote(NameBeforeBar(key.name), LocationOf(hotels, key.id),
               AcceptRows(GroupOffer(req, rates, carpans, key), RowsOf(rates, req.hotelFilter, key)).offerings)
  }

  function QuotesFor(req: Request, rates: seq<RateRow>, carpans: seq<MultiplierRow>, hotels: seq<HotelInfo>, keys: seq<HotelKey>): (quotes: seq<HotelQuote>)
    ensures |quotes| == |keys|
  {
    if keys == [] then []
    else QuotesFor(req, rates, carpans, hotels, keys[..|keys| - 1]) + [QuoteFor(req, rates, carpans, hotels, keys[|keys| - 1])]
  }

  /** The answer to a request: one quote per group, in group order. */
  function Response(req: Request, rates: seq<RateRow>, carpans: seq<MultiplierRow>, hotels: seq<HotelInfo>): seq<HotelQuote>
  {
    QuotesFor(req, rates, carpans, hotels, HotelKeys(rates, req.hotelFilter))
  }

  /** One more group appends its quote. */
  lemma QuotesForStep(req: Request, rates: seq<RateRow>, carpans: seq<MultiplierRow>, hotels: seq<HotelInfo>, keys: seq<HotelKey>, i: nat)
    requires i < |keys|
    ensures QuotesFor(req, rates, carpans, hotels, keys[..i + 1])
            == QuotesFor(req, rates, carpans, hotels, keys[..i]) + [QuoteFor(req, rates, carpans, hotels, keys[i])]
  {
    assert keys[..i + 1][..i] == keys[..i];
  }

  /** The i-th quote is the one for the i-th group. */
  lemma {:induction false} QuotesForElements(req: Request, rates: seq<RateRow>, carpans: seq<MultiplierRow>, hotels: seq<HotelInfo>,
                                             keys: seq<HotelKey>, i: int)
    requires 0 <= i < |keys|
    ensures QuotesFor(req, rates, carpans, hotels, keys)[i] == QuoteFor(req, rates, carpans, hotels, keys[i])
    decreases |keys|
  {
    if i < |keys| - 1 {
      QuotesForElements(req, rates, carpans, hotels, keys[..|keys| - 1], i);
    }
  }

  /** With a non-zero hotel filter every quote is for the filtered hotel; without one every hotel with a rate row is quoted. */
  lemma HotelFilterRespected(req: Request, rates: seq<RateRow>)
    ensures req.hotelFilter.Some? && req.hotelFilter.value != 0 ==>
      forall k :: k in HotelKeys(rates, req.hotelFilter) ==> k.id == req.hotelFilter.value
    ensures !(req.hotelFilter.Some? && req.hotelFilter.value != 0) ==>
      forall i :: 0 <= i < |rates| ==> KeyOfRow(rates[i]) in HotelKeys(rates, req.hotelFilter)
  {
    HotelKeysMembers(rates, req.hotelFilter);
  }

  /** An offering in the answer is what some row of its hotel's group yields for the normalised party and the stay. */
  lemma ResponseOfferingRow(req: Request, rates: seq<RateRow>, carpans: seq<MultiplierRow>, hotels: seq<HotelInfo>,
                            i: int, o: Offering) returns (row: RateRow)
    requires 0 <= i < |Response(req, rates, carpans, hotels)|
    requires o in Response(req, rates, carpans, hotels)[i].offerings
    ensures
      var key := HotelKeys(rates, req.hotelFilter)[i];
      && row in RowsOf(rates, req.hotelFilter, key)
      && OfferFor(carpans, key.id, RowsOf(rates, req.hotelFilter, key), row,
                  NormalizedParty(carpans, key.id, req.adults, req.childAges), NightsOf(req.checkin, req.checkout)) == Some(o)
  {
    var keys := HotelKeys(rates, req.hotelFilter);
    var key := keys[i];
    QuotesForElements(req, rates, carpans, hotels, keys, i);
    var rows := RowsOf(rates, req.hotelFilter, key);
    row := AcceptedFromRow(GroupOffer(req, rates, carpans, key), rows, o);
  }

  /**
   * Every offering in the answer comes from a rate row of its hotel with the
   * same room type and concept: it has a non-zero factor for one to three
   * rooms, and each night of the stay has a rate for it in that hotel.
   */
  lemma ResponseOfferingsPriced(req: Request, rates: seq<RateRow>, carpans: seq<MultiplierRow>, hotels: seq<HotelInfo>,
                                i: int, o: Offering)
    requires 0 <= i < |Response(req, rates, carpans, hotels)|
    requires o in Response(req, rates, carpans, hotels)[i].offerings
    ensures
      var key := HotelKeys(rates, req.hotelFilter)[i];
      && (exists row :: && row in rates && Kept(req.hotelFilter, row) && KeyOfRow(row) == key
                        && row.roomType == o.roomType && row.concept == o.concept)
      && 1 <= o.roomCount <= 3 && o.factor != 0.0
      && forall d :: req.checkin <= d < req.checkout ==>
           NightRate(RowsOf(rates, req.hotelFilter, key), o.roomType, o.concept, d).Some?
  {
    var key := HotelKeys(rates, req.hotelFilter)[i];
    var rows := RowsOf(rates, req.hotelFilter, key);
    var party := NormalizedParty(carpans, key.id, req.adults, req.childAges);
    var row := ResponseOfferingRow(req, rates, carpans, hotels, i, o);
    RowsOfMembers(rates, req.hotelFilter, key);
    assert row in rates && Kept(req.hotelFilter, row) && KeyOfRow(row) == key;
    OfferCoversStay(carpans, key.id, rows, row, party, req.checkin, req.checkout);
  }

  /**
   * The amount of every offering in the answer is the stay's summed rates for
   * its room type and concept times the factor selected for the hotel's
   * normalised party, with the selection's room count. The selection and the
   * stay total are the content; the last clause only unfolds `Amount` so that
   * callers get the product without opening its definition.
   */
  lemma ResponseOfferingsAmount(req: Request, rates: seq<RateRow>, carpans: seq<MultiplierRow>, hotels: seq<HotelInfo>,
                                i: int, o: Offering)
    requires 0 <= i < |Response(req, rates, carpans, hotels)|
    requires o in Response(req, rates, carpans, hotels)[i].offerings
    ensures
      var key := HotelKeys(rates, req.hotelFilter)[i];
      var party := NormalizedParty(carpans, key.id, req.adults, req.childAges);
      var stay := StayTotal(RowsOf(rates, req.hotelFilter, key), o.roomType, o.concept, NightsOf(req.checkin, req.checkout));
      && SelectFactor(carpans, key.id, o.roomType, party) == Some(Selection(o.roomCount, o.factor))
      && stay == Some(o.stayTotal)
      && Amount(o) == o.stayTotal * o.factor
  {
    var key := HotelKeys(rates, req.hotelFilter)[i];
    var rows := RowsOf(rates, req.hotelFilter, key);
    var party := NormalizedParty(carpans, key.id, req.adults, req.childAges);
    var nights := NightsOf(req.checkin, req.checkout);
    var row := ResponseOfferingRow(req, rates, carpans, hotels, i, o);
    OfferedAmount(carpans, key.id, rows, row, party, nights, o);
  }

  /** Within one quote no two offerings share a `roomType|concept` key. */
  lemma QuoteKeysDistinct(req: Request, rates: seq<RateRow>, carpans: seq<MultiplierRow>, hotels: seq<HotelInfo>, i: int)
    requires 0 <= i < |Response(req, rates, carpans, hotels)|
    ensures
      var offerings := Response(req, rates, carpans, hotels)[i].offerings;
      forall a, b :: 0 <= a < b < |offerings| ==> OfferKey(offerings[a]) != OfferKey(offerings[b])
  {
    var keys := HotelKeys(rates, req.hotelFilter);
    var key := keys[i];
    QuotesForElements(req, rates, carpans, hotels, keys, i);
    HotelOfferKeepsKey(carpans, key.id, RowsOf(rates, req.hotelFilter, key),
                       NormalizedParty(carpans, key.id, req.adults, req.childAges), NightsOf(req.checkin, req.checkout));
    OfferingKeysDistinct(GroupOffer(req, rates, carpans, key), RowsOf(rates, req.hotelFilter, key));
  }

  /** The body of the outer loop: one group's quote. */
  method QuoteHotel(req: Request, rates: seq<RateRow>, carpans: seq<MultiplierRow>, hotels: seq<HotelInfo>,
                    key: HotelKey, rows: seq<RateRow>) returns (quote: HotelQuote)
    requires rows == RowsOf(rates, req.hotelFilter, key)
    ensures quote == QuoteFor(req, rates, carpans, hotels, key)
  {
    var location := LocationOf(hotels, key.id);
    var nights := StayNights(req.checkin, req.checkout);
    var offerings := PriceHotel(carpans, key.id, rows, req.adults, req.children, req.childAges, nights);
    quote := HotelQuote(NameBeforeBar(key.name), location, offerings);
  }

  /** The handler's loop over the groups, in key order. */
  method QuoteGroups(req: Request, rates: seq<RateRow>, carpans: seq<MultiplierRow>, hotels: seq<HotelInfo>,
                     keys: seq<HotelKey>, grouped: map<HotelKey, seq<RateRow>>) returns (quotes: seq<HotelQuote>)
    requires forall k :: k in keys ==> k in grouped && grouped[k] == RowsOf(rates, req.hotelFilter, k)
    ensures quotes == QuotesFor(req, rates, carpans, hotels, keys)
  {
    quotes := [];
    var i := 0;
    while i < |keys|
      invariant 0 <= i <= |keys|
      invariant quotes == QuotesFor(req, rates, carpans, hotels, keys[..i])
    {
      var key := keys[i];
      var quote := QuoteHotel(req, rates, carpans, hotels, key, grouped[key]);
      QuotesForStep(req, rates, carpans, hotels, keys, i);
      quotes := quotes + [quote];
      i := i + 1;
    }
    assert keys[..i] == keys;
  }

  /** The handler: group the rate rows, then quote every group. */
  method PriceRequest(req: Request, rates: seq<RateRow>, carpans: seq<MultiplierRow>, hotels: seq<HotelInfo>) returns (quotes: seq<HotelQuote>)
    ensures quotes == Response(req, rates, carpans, hotels)
  {
    var keys, grouped := GroupByHotel(rates, req.hotelFilter);
    quotes := QuoteGroups(req, rates, carpans, hotels, keys, grouped);
  }
}

=== FILE: room_combinations.dfy ===
/**
 * `generateRoomCombinations`: the live path's bounded list of room splits,
 * the whole party first, then every split into two rooms, then every split
 * into three, each room after the first taking the next ages in order.
 */
module RoomCombinations {
  import opened SeqUtil
  import opened Guests

  /** The two-room split with `a1` adults and `c1` children in the first room. */
  function TwoRooms(y: nat, c: nat, ages: seq<real>, a1: nat, c1: nat): seq<GuestGroup>
    requires a1 <= y && c1 <= c
  {
    [GuestGroup(a1, c1, Take(ages, c1)), GuestGroup(y - a1, c - c1, Drop(ages, c1))]
  }

  /** The three-room split with `a1`, `a2` adults and `c1`, `c2` children in the first two rooms. */
  function ThreeRooms(y: nat, c: nat, ages: seq<real>, a1: nat, a2: nat, c1: nat, c2: nat): seq<GuestGroup>
    requires a1 + a2 <= y && c1 + c2 <= c
  {
    [GuestGroup(a1, c1, Take(ages, c1)), GuestGroup(a2, c2, Take(Drop(ages, c1), c2)), GuestGroup(y - a1 - a2, c - c1 - c2, Drop(ages, c1 + c2))]
  }

  // The four nested loops, each from its current counter on.

  function TwoFrom(y: nat, c: nat, ages: seq<real>, a1: nat): seq<seq<GuestGroup>>
    requires a1 >= 1
    decreases y - a1
  {
    if a1 >= y then [] else TwoChildrenFrom(y, c, ages, a1, 0) + TwoFrom(y, c, ages, a1 + 1)
  }

  function TwoChildrenFrom(y: nat, c: nat, ages: seq<real>, a1: nat, c1: nat): seq<seq<GuestGroup>>
    requires 1 <= a1 < y
    decreases c + 1 - c1
  {
    if c1 > c then [] else [TwoRooms(y, c, ages, a1, c1)] + TwoChildrenFrom(y, c, ages, a1, c1 + 1)
  }

  function ThreeFrom(y: nat, c: nat, ages: seq<real>, a1: nat): seq<seq<GuestGroup>>
    requires a1 >= 1
    decreases y - a1
  {
    if a1 + 2 > y then [] else ThreeSecondFrom(y, c, ages, a1, 1) + ThreeFrom(y, c, ages, a1 + 1)
  }

  function ThreeSecondFrom(y: nat, c: nat, ages: seq<real>, a1: nat, a2: nat): seq<seq<GuestGroup>>
    requires 1 <= a1 && a1 + 2 <= y && a2 >= 1
    decreases y - a2
  {
    if a1 + a2 + 1 > y then [] else ThreeChildrenFrom(y, c, ages, a1, a2, 0) + ThreeSecondFrom(y, c, ages, a1, a2 + 1)
  }

  function ThreeChildrenFrom(y: nat, c: nat, ages: seq<real>, a1: nat, a2: nat, c1: nat): seq<seq<GuestGroup>>
    requires 1 <= a1 && 1 <= a2 && a1 + a2 < y
    decreases c + 1 - c1
  {
    if c1 > c then [] else ThreeLastFrom(y, c, ages, a1, a2, c1, 0) + ThreeChildrenFrom(y, c, ages, a1, a2, c1 + 1)
  }

  function ThreeLastFrom(y: nat, c: nat, ages: seq<real>, a1: nat, a2: nat, c1: nat, c2: nat): seq<seq<GuestGroup>>
    requires 1 <= a1 && 1 <= a2 && a1 + a2 < y && c1 <= c
    decreases c + 1 - c1 - c2
  {
    if c1 + c2 > c then [] else [ThreeRooms(y, c, ages, a1, a2, c1, c2)] + ThreeLastFrom(y, c, ages, a1, a2, c1, c2 + 1)
  }

  /** The list `generateRoomCombinations(y, c, ages)` returns, in order. */
  function Combinations(y: nat, c: nat, ages: seq<real>): seq<seq<GuestGroup>>
  {
    [[GuestGroup(y, c, ages)]]
      + (if y >= 2 then TwoFrom(y, c, ages, 1) else [])
      + (if y >= 3 then ThreeFrom(y, c, ages, 1) else [])
  }

  // ---------------------------------------------------------------------------
  // What the list holds

  /** A split into two or three rooms of the party (`y` adults, `c` children, `ages`). */
  predicate MultiRoomSplit(combo: seq<GuestGroup>, y: nat, c: nat, ages: seq<real>)
  {
    && 2 <= |combo| <= 3
    && SplitsCounts(combo, GuestGroup(y, c, ages))
    && (c == |ages| ==> SplitsAges(combo, GuestGroup(y, c, ages)))
  }

  lemma {:induction false} TwoRoomsSplit(y: nat, c: nat, ages: seq<real>, a1: nat, c1: nat)
    requires 1 <= a1 < y && c1 <= c
    ensures MultiRoomSplit(TwoRooms(y, c, ages, a1, c1), y, c, ages)
  {
    SmallSplits(TwoRooms(y, c, ages, a1, c1));
  }

  lemma {:induction false} ThreeRoomsSplit(y: nat, c: nat, ages: seq<real>, a1: nat, a2: nat, c1: nat, c2: nat)
    requires 1 <= a1 && 1 <= a2 && a1 + a2 < y && c1 + c2 <= c
    ensures MultiRoomSplit(ThreeRooms(y, c, ages, a1, a2, c1, c2), y, c, ages)
  {
    var g1 := GuestGroup(a1, c1, Take(ages, c1));
    var g2 := GuestGroup(a2, c2, Take(Drop(ages, c1), c2));
    var g3 := GuestGroup(y - a1 - a2, c - c1 - c2, Drop(ages, c1 + c2));
    if c == |ages| {
      ThreeSlices(ages, c1, c2);
    }
    ThreeGroupsSplit(g1, g2, g3, GuestGroup(y, c, ages));
  }

  /** Three rooms with an adult each whose counts add up, and, for a well-formed party, whose ages line up. */
  lemma ThreeGroupsSplit(g1: GuestGroup, g2: GuestGroup, g3: GuestGroup, party: GuestGroup)
    requires g1.adults >= 1 && g2.adults >= 1 && g3.adults >= 1
    requires g1.adults + g2.adults + g3.adults == party.adults
    requires g1.children + g2.children + g3.children == party.children
    requires party.children == |party.childAges| ==>
      WellFormed(g1) && WellFormed(g2) && WellFormed(g3) && g1.childAges + g2.childAges + g3.childAges == party.childAges
    ensures MultiRoomSplit([g1, g2, g3], party.adults, party.children, party.childAges)
  {
    TripleSplits(g1, g2, g3);
  }

  lemma {:induction false} TwoChildrenFromSound(y: nat, c: nat, ages: seq<real>, a1: nat, c1: nat)
    requires 1 <= a1 < y
    ensures forall combo :: combo in TwoChildrenFrom(y, c, ages, a1, c1) ==> MultiRoomSplit(combo, y, c, ages)
    decreases c + 1 - c1
  {
    if c1 <= c {
      TwoRoomsSplit(y, c, ages, a1, c1);
      TwoChildrenFromSound(y, c, ages, a1, c1 + 1);
    }
  }

  lemma {:induction false} TwoFromSound(y: nat, c: nat, ages: seq<real>, a1: nat)
    requires a1 >= 1
    ensures forall combo :: combo in TwoFrom(y, c, ages, a1) ==> MultiRoomSplit(combo, y, c, ages)
    decreases y - a1
  {
    if a1 < y {
      TwoChildrenFromSound(y, c, ages, a1, 0);
      TwoFromSound(y, c, ages, a1 + 1);
    }
  }

  lemma {:induction false} ThreeLastFromSound(y: nat, c: nat, ages: seq<real>, a1: nat, a2: nat, c1: nat, c2: nat)
    requires 1 <= a1 && 1 <= a2 && a1 + a2 < y && c1 <= c
    ensures forall combo :: combo in ThreeLastFrom(y, c, ages, a1, a2, c1, c2) ==> MultiRoomSplit(combo, y, c, ages)
    decreases c + 1 - c1 - c2
  {
    if c1 + c2 <= c {
      var here := ThreeRooms(y, c, ages, a1, a2, c1, c2);
      assert ThreeLastFrom(y, c, ages, a1, a2, c1, c2) == [here] + ThreeLastFrom(y, c, ages, a1, a2, c1, c2 + 1);
      ThreeRoomsSplit(y, c, ages, a1, a2, c1, c2);
      ThreeLastFromSound(y, c, ages, a1, a2, c1, c2 + 1);
    }
  }

  lemma {:induction false} ThreeChildrenFromSound(y: nat, c: nat, ages: seq<real>, a1: nat, a2: nat, c1: nat)
    requires 1 <= a1 && 1 <= a2 && a1 + a2 < y
    ensures forall combo :: combo in ThreeChildrenFrom(y, c, ages, a1, a2, c1) ==> MultiRoomSplit(combo, y, c, ages)
    decreases c + 1 - c1
  {
    if c1 <= c {
      ThreeLastFromSound(y, c, ages, a1, a2, c1, 0);
      ThreeChildrenFromSound(y, c, ages, a1, a2, c1 + 1);
    }
  }

  lemma {:induction false} ThreeSecondFromSound(y: nat, c: nat, ages: seq<real>, a1: nat, a2: nat)
    requires 1 <= a1 && a1 + 2 <= y && a2 >= 1
    ensures forall combo :: combo in ThreeSecondFrom(y, c, ages, a1, a2) ==> MultiRoomSplit(combo, y, c, ages)
    decreases y - a2
  {
    if a1 + a2 + 1 <= y {
      ThreeChildrenFromSound(y, c, ages, a1, a2, 0);
      ThreeSecondFromSound(y, c, ages, a1, a2 + 1);
    }
  }

  lemma {:induction false} ThreeFromSound(y: nat, c: nat, ages: seq<real>, a1: nat)
    requires a1 >= 1
    ensures forall combo :: combo in ThreeFrom(y, c, ages, a1) ==> MultiRoomSplit(combo, y, c, ages)
    decreases y - a1
  {
    if a1 + 2 <= y {
      ThreeSecondFromSound(y, c, ages, a1, 1);
      ThreeFromSound(y, c, ages, a1 + 1);
    }
  }

  /**
   * Every entry is the whole party in one room, listed first, or a split into
   * two or three rooms with an adult in each, the counts conserved and, for a
   * well-formed party, the ages cut into consecutive slices in order.
   */
  lemma CombinationsSound(y: nat, c: nat, ages: seq<real>)
    ensures Combinations(y, c, ages)[0] == [GuestGroup(y, c, ages)]
    ensures forall combo :: combo in Combinations(y, c, ages) ==>
      combo == [GuestGroup(y, c, ages)] || MultiRoomSplit(combo, y, c, ages)
  {
    TwoFromSound(y, c, ages, 1);
    ThreeFromSound(y, c, ages, 1);
  }

  lemma {:induction false} TwoChildrenFromContains(y: nat, c: nat, ages: seq<real>, a1: nat, c0: nat, c1: nat)
    requires 1 <= a1 < y && c0 <= c1 <= c
    ensures TwoRooms(y, c, ages, a1, c1) in TwoChildrenFrom(y, c, ages, a1, c0)
    decreases c1 - c0
  {
    if c0 < c1 {
      TwoChildrenFromContains(y, c, ages, a1, c0 + 1, c1);
    }
  }

  lemma {:induction false} TwoFromContains(y: nat, c: nat, ages: seq<real>, a0: nat, a1: nat, c1: nat)
    requires 1 <= a0 <= a1 < y && c1 <= c
    ensures TwoRooms(y, c, ages, a1, c1) in TwoFrom(y, c, ages, a0)
    decreases a1 - a0
  {
    if a0 < a1 {
      TwoFromContains(y, c, ages, a0 + 1, a1, c1);
    } else {
      TwoChildrenFromContains(y, c, ages, a1, 0, c1);
    }
  }

  lemma {:induction false} ThreeLastFromContains(y: nat, c: nat, ages: seq<real>, a1: nat, a2: nat, c1: nat, d0: nat, c2: nat)
    requires 1 <= a1 && 1 <= a2 && a1 + a2 < y && d0 <= c2 && c1 + c2 <= c
    ensures ThreeRooms(y, c, ages, a1, a2, c1, c2) in ThreeLastFrom(y, c, ages, a1, a2, c1, d0)
    decreases c2 - d0
  {
    var here, later := ThreeRooms(y, c, ages, a1, a2, c1, d0), ThreeLastFrom(y, c, ages, a1, a2, c1, d0 + 1);
    assert ThreeLastFrom(y, c, ages, a1, a2, c1, d0) == [here] + later;
    if d0 < c2 {
      ThreeLastFromContains(y, c, ages, a1, a2, c1, d0 + 1, c2);
      InConcat(ThreeRooms(y, c, ages, a1, a2, c1, c2), [here], later);
    } else {
      InConcat(here, [here], later);
    }
  }

  lemma {:induction false} ThreeChildrenFromContains(y: nat, c: nat, ages: seq<real>, a1: nat, a2: nat, c0: nat, c1: nat, c2: nat)
    requires 1 <= a1 && 1 <= a2 && a1 + a2 < y && c0 <= c1 && c1 + c2 <= c
    ensures ThreeRooms(y, c, ages, a1, a2, c1, c2) in ThreeChildrenFrom(y, c, ages, a1, a2, c0)
    decreases c1 - c0
  {
    var combo := ThreeRooms(y, c, ages, a1, a2, c1, c2);
    var here, later := ThreeLastFrom(y, c, ages, a1, a2, c0, 0), ThreeChildrenFrom(y, c, ages, a1, a2, c0 + 1);
    assert ThreeChildrenFrom(y, c, ages, a1, a2, c0) == here + later;
    if c0 < c1 {
      ThreeChildrenFromContains(y, c, ages, a1, a2, c0 + 1, c1, c2);
    } else {
      ThreeLastFromContains(y, c, ages, a1, a2, c1, 0, c2);
    }
    InConcat(combo, here, later);
  }

  lemma {:induction false} ThreeSecondFromContains(y: nat, c: nat, ages: seq<real>, a1: nat, b0: nat, a2: nat, c1: nat, c2: nat)
    requires 1 <= a1 && 1 <= b0 <= a2 && a1 + a2 < y && c1 + c2 <= c
    ensures ThreeRooms(y, c, ages, a1, a2, c1, c2) in ThreeSecondFrom(y, c, ages, a1, b0)
    decreases a2 - b0
  {
    var combo := ThreeRooms(y, c, ages, a1, a2, c1, c2);
    var first := 0;  // a variable, not a literal, keeps the verifier from unrolling ThreeChildrenFrom
    var here, later := ThreeChildrenFrom(y, c, ages, a1, b0, first), ThreeSecondFrom(y, c, ages, a1, b0 + 1);
    assert ThreeSecondFrom(y, c, ages, a1, b0) == here + later;
    if b0 < a2 {
      ThreeSecondFromContains(y, c, ages, a1, b0 + 1, a2, c1, c2);
    } else {
      ThreeChildrenFromContains(y, c, ages, a1, a2, first, c1, c2);
    }
    InConcat(combo, here, later);
  }

  lemma {:induction false} ThreeFromContains(y: nat, c: nat, ages: seq<real>, a0: nat, a1: nat, a2: nat, c1: nat, c2: nat)
    requires 1 <= a0 <= a1 && 1 <= a2 && a1 + a2 < y && c1 + c2 <= c
    ensures ThreeRooms(y, c, ages, a1, a2, c1, c2) in ThreeFrom(y, c, ages, a0)
    decreases a1 - a0
  {
    var combo := ThreeRooms(y, c, ages, a1, a2, c1, c2);
    var first := 1;  // a variable, not a literal, keeps the verifier from unrolling ThreeSecondFrom
    var here, later := ThreeSecondFrom(y, c, ages, a0, first), ThreeFrom(y, c, ages, a0 + 1);
    assert ThreeFrom(y, c, ages, a0) == here + later;
    if a0 < a1 {
      ThreeFromContains(y, c, ages, a0 + 1, a1, a2, c1, c2);
    } else {
      ThreeSecondFromContains(y, c, ages, a1, first, a2, c1, c2);
    }
    InConcat(combo, here, later);
  }

  /** For a well-formed party, every partition into two or three rooms is on the list. */
  lemma CombinationsComplete(y: nat, c: nat, ages: seq<real>, combo: seq<GuestGroup>)
    requires c == |ages|
    requires 2 <= |combo| <= 3 && IsPartitionOf(combo, GuestGroup(y, c, ages))
    ensures combo in Combinations(y, c, ages)
  {
    if |combo| == 2 {
      assert combo == [combo[0], combo[1]];
      TwoPartitionListed(y, c, ages, combo[0], combo[1]);
    } else {
      assert combo == [combo[0], combo[1], combo[2]];
      ThreePartitionListed(y, c, ages, combo[0], combo[1], combo[2]);
    }
  }

  lemma TwoPartitionListed(y: nat, c: nat, ages: seq<real>, r1: GuestGroup, r2: GuestGroup)
    requires c == |ages|
    requires IsPartitionOf([r1, r2], GuestGroup(y, c, ages))
    ensures [r1, r2] in Combinations(y, c, ages)
  {
    PairSplits(r1, r2);
    assert [r1, r2][0] == r1 && [r1, r2][1] == r2;
    var a1, c1 := r1.adults, r1.children;
    TakeDrop(ages, c1);
    AppendInjective(r1.childAges, r2.childAges, Take(ages, c1), Drop(ages, c1));
    assert [r1, r2] == TwoRooms(y, c, ages, a1, c1);
    TwoFromContains(y, c, ages, 1, a1, c1);
    var single, two, three := [[GuestGroup(y, c, ages)]], TwoFrom(y, c, ages, 1), if y >= 3 then ThreeFrom(y, c, ages, 1) else [];
    InConcat([r1, r2], single, two);
    InConcat([r1, r2], single + two, three);
  }

  lemma ThreePartitionListed(y: nat, c: nat, ages: seq<real>, r1: GuestGroup, r2: GuestGroup, r3: GuestGroup)
    requires c == |ages|
    requires IsPartitionOf([r1, r2, r3], GuestGroup(y, c, ages))
    ensures [r1, r2, r3] in Combinations(y, c, ages)
  {
    TripleSplits(r1, r2, r3);
    assert [r1, r2, r3][0] == r1 && [r1, r2, r3][1] == r2 && [r1, r2, r3][2] == r3;
    var a1, a2, c1, c2 := r1.adults, r2.adults, r1.children, r2.children;
    ThreeSlices(ages, c1, c2);
    var s1, s2, s3 := Take(ages, c1), Take(Drop(ages, c1), c2), Drop(ages, c1 + c2);
    AppendInjective(r1.childAges + r2.childAges, r3.childAges, s1 + s2, s3);
    AppendInjective(r1.childAges, r2.childAges, s1, s2);
    assert [r1, r2, r3] == ThreeRooms(y, c, ages, a1, a2, c1, c2);
    ThreeFromContains(y, c, ages, 1, a1, a2, c1, c2);
    var single, two, three := [[GuestGroup(y, c, ages)]], if y >= 2 then TwoFrom(y, c, ages, 1) else [], ThreeFrom(y, c, ages, 1);
    InConcat([r1, r2, r3], single + two, three);
  }

  /** The `yetiskin >= 2` block: push every two-room split. */
  method PushTwoRoomSplits(y: nat, c: nat, ages: seq<real>, start: seq<seq<GuestGroup>>) returns (combinations: seq<seq<GuestGroup>>)
    ensures combinations == start + TwoFrom(y, c, ages, 1)
  {
    combinations := start;
    var a1 := 1;
    while a1 < y
      invariant 1 <= a1
      invariant a1 <= y || y < 2
      invariant combinations + TwoFrom(y, c, ages, a1) == start + TwoFrom(y, c, ages, 1)
    {
      ghost var before := combinations;
      combinations := PushTwoRoomChildren(y, c, ages, a1, combinations);
      ghost var here, later := TwoChildrenFrom(y, c, ages, a1, 0), TwoFrom(y, c, ages, a1 + 1);
      assert TwoFrom(y, c, ages, a1) == here + later;
      AppendAssoc(before, here, later);
      a1 := a1 + 1;
    }
  }

  /** The `c1` loop of the `yetiskin >= 2` block. */
  method PushTwoRoomChildren(y: nat, c: nat, ages: seq<real>, a1: nat, start: seq<seq<GuestGroup>>)
    returns (combinations: seq<seq<GuestGroup>>)
    requires 1 <= a1 < y
    ensures combinations == start + TwoChildrenFrom(y, c, ages, a1, 0)
  {
    combinations := start;
    var c1 := 0;
    while c1 <= c
      invariant 0 <= c1 <= c + 1
      invariant combinations + TwoChildrenFrom(y, c, ages, a1, c1) == start + TwoChildrenFrom(y, c, ages, a1, 0)
    {
      ghost var before := combinations;
      var split := TwoRooms(y, c, ages, a1, c1);
      combinations := combinations + [split];
      ghost var later := TwoChildrenFrom(y, c, ages, a1, c1 + 1);
      assert TwoChildrenFrom(y, c, ages, a1, c1) == [split] + later;
      AppendAssoc(before, [split], later);
      c1 := c1 + 1;
    }
  }

  /** The innermost loop of the `yetiskin >= 3` block. */
  method PushThreeRoomLast(y: nat, c: nat, ages: seq<real>, a1: nat, a2: nat, c1: nat, start: seq<seq<GuestGroup>>)
    returns (combinations: seq<seq<GuestGroup>>)
    requires 1 <= a1 && 1 <= a2 && a1 + a2 < y && c1 <= c
    ensures combinations == start + ThreeLastFrom(y, c, ages, a1, a2, c1, 0)
  {
    combinations := start;
    var c2 := 0;
    while c2 <= c - c1
      invariant 0 <= c2 <= c - c1 + 1
      invariant combinations + ThreeLastFrom(y, c, ages, a1, a2, c1, c2) == start + ThreeLastFrom(y, c, ages, a1, a2, c1, 0)
    {
      ghost var before := combinations;
      var split := ThreeRooms(y, c, ages, a1, a2, c1, c2);
      combinations := combinations + [split];
      ghost var later := ThreeLastFrom(y, c, ages, a1, a2, c1, c2 + 1);
      assert ThreeLastFrom(y, c, ages, a1, a2, c1, c2) == [split] + later;
      AppendAssoc(before, [split], later);
      c2 := c2 + 1;
    }
  }

  /** The `c1` loop of the `yetiskin >= 3` block. */
  method PushThreeRoomChildren(y: nat, c: nat, ages: seq<real>, a1: nat, a2: nat, start: seq<seq<GuestGroup>>)
    returns (combinations: seq<seq<GuestGroup>>)
    requires 1 <= a1 && 1 <= a2 && a1 + a2 < y
    ensures combinations == start + ThreeChildrenFrom(y, c, ages, a1, a2, 0)
  {
    combinations := start;
    var c1 := 0;
    while c1 <= c
      invariant 0 <= c1 <= c + 1
      invariant combinations + ThreeChildrenFrom(y, c, ages, a1, a2, c1) == start + ThreeChildrenFrom(y, c, ages, a1, a2, 0)
    {
      ghost var before := combinations;
      combinations := PushThreeRoomLast(y, c, ages, a1, a2, c1, combinations);
      ghost var here, later := ThreeLastFrom(y, c, ages, a1, a2, c1, 0), ThreeChildrenFrom(y, c, ages, a1, a2, c1 + 1);
      assert ThreeChildrenFrom(y, c, ages, a1, a2, c1) == here + later;
      AppendAssoc(before, here, later);
      c1 := c1 + 1;
    }
  }

  /** The `a2` loop of the `yetiskin >= 3` block. */
  method PushThreeRoomSecond(y: nat, c: nat, ages: seq<real>, a1: nat, start: seq<seq<GuestGroup>>)
    returns (combinations: seq<seq<GuestGroup>>)
    requires 1 <= a1 && a1 + 2 <= y
    ensures combinations == start + ThreeSecondFrom(y, c, ages, a1, 1)
  {
    combinations := start;
    var a2 := 1;
    while a1 + a2 + 1 <= y
      invariant 1 <= a2
      invariant combinations + ThreeSecondFrom(y, c, ages, a1, a2) == start + ThreeSecondFrom(y, c, ages, a1, 1)
    {
      ghost var before := combinations;
      combinations := PushThreeRoomChildren(y, c, ages, a1, a2, combinations);
      ghost var here, later := ThreeChildrenFrom(y, c, ages, a1, a2, 0), ThreeSecondFrom(y, c, ages, a1, a2 + 1);
      assert ThreeSecondFrom(y, c, ages, a1, a2) == here + later;
      AppendAssoc(before, here, later);
      a2 := a2 + 1;
    }
  }

  /** The `yetiskin >= 3` block: push every three-room split. */
  method PushThreeRoomSplits(y: nat, c: nat, ages: seq<real>, start: seq<seq<GuestGroup>>) returns (combinations: seq<seq<GuestGroup>>)
    ensures combinations == start + ThreeFrom(y, c, ages, 1)
  {
    combinations := start;
    var a1 := 1;
    while a1 + 2 <= y
      invariant 1 <= a1
      invariant combinations + ThreeFrom(y, c, ages, a1) == start + ThreeFrom(y, c, ages, 1)
    {
      ghost var before := combinations;
      combinations := PushThreeRoomSecond(y, c, ages, a1, combinations);
      ghost var here, later := ThreeSecondFrom(y, c, ages, a1, 1), ThreeFrom(y, c, ages, a1 + 1);
      assert ThreeFrom(y, c, ages, a1) == here + later;
      AppendAssoc(before, here, later);
      a1 := a1 + 1;
    }
  }

  /**
   * `generateRoomCombinations`: the single room first, then the two-room and
   * three-room splits in loop order.
   */
  method GenerateRoomCombinations(yetiskin: nat, cocuk: nat, yaslar: seq<real>) returns (combinations: seq<seq<GuestGroup>>)
    ensures combinations == Combinations(yetiskin, cocuk, yaslar)
    ensures combinations[0] == [GuestGroup(yetiskin, cocuk, yaslar)]
    ensures forall combo :: combo in combinations ==>
      combo == [GuestGroup(yetiskin, cocuk, yaslar)] || MultiRoomSplit(combo, yetiskin, cocuk, yaslar)
    ensures cocuk == |yaslar| ==>
      forall combo :: 2 <= |combo| <= 3 && IsPartitionOf(combo, GuestGroup(yetiskin, cocuk, yaslar)) ==> combo in combinations
  {
    combinations := [[GuestGroup(yetiskin, cocuk, yaslar)]];
    if yetiskin >= 2 {
      combinations := PushTwoRoomSplits(yetiskin, cocuk, yaslar, combinations);
    }
    if yetiskin >= 3 {
      combinations := PushThreeRoomSplits(yetiskin, cocuk, yaslar, combinations);
    }
    CombinationsSound(yetiskin, cocuk, yaslar);
    if cocuk == |yaslar| {
      forall combo | 2 <= |combo| <= 3 && IsPartitionOf(combo, GuestGroup(yetiskin, cocuk, yaslar))
        ensures combo in combinations
      {
        CombinationsComplete(yetiskin, cocuk, yaslar, combo);
      }
    }
  }
}

=== FILE: room_distribution.dfy ===
/**
 * The unbounded room-distribution search: every ordered split of a party into
 * rooms (each with at least one adult, child ages taken contiguously from the
 * front), a multiplier lookup by hotel name, and the choice of the fully priced
 * split with the smallest total multiplier.
 */
module RoomDistribution {
  import opened Wrappers
  import opened SeqUtil
  import opened Catalog
  import opened Guests

  datatype RoomOption = RoomOption(adults: nat, children: nat, childAges: seq<real>, multiplier: real)

  datatype BestRoomResult = BestRoomResult(rooms: seq<RoomOption>, totalMultiplier: real)

  // ---------------------------------------------------------------------------
  // getMultiplier

  /**
   * The row test of `getMultiplier`: hotel name, room type, adults and children
   * equal (a row without a child count never matches), and for every non-empty
   * interval i the i-th age exists and lies in it. The number of intervals is
   * not compared with the number of ages.
   */
  predicate MultiplierFits(row: MultiplierRow, hotelName: string, roomType: string,
                           adults: nat, children: nat, childAges: seq<real>)
  {
    && row.hotelName == hotelName
    && row.roomType == roomType
    && row.adults == adults
    && row.children == Some(children)
    && forall i :: 0 <= i < |Intervals(row)| ==> i < |childAges| && InRange(childAges[i], Intervals(row)[i])
  }

  /** The multiplier of the first fitting row, or `None` when no row fits. */
  function GetMultiplier(carpans: seq<MultiplierRow>, hotelName: string, roomType: string,
                         adults: nat, children: nat, childAges: seq<real>): (r: Option<real>)
    ensures r.None? <==> forall k :: 0 <= k < |carpans| ==> !MultiplierFits(carpans[k], hotelName, roomType, adults, children, childAges)
    ensures r.Some? ==> exists k :: 0 <= k < |carpans| && MultiplierFits(carpans[k], hotelName, roomType, adults, children, childAges)
                                   && r.value == carpans[k].factor
                                   && forall j :: 0 <= j < k ==> !MultiplierFits(carpans[j], hotelName, roomType, adults, children, childAges)
  {
    match FirstIndex(carpans, row => MultiplierFits(row, hotelName, roomType, adults, children, childAges))
    case None => None
    case Some(k) => Some(carpans[k].factor)
  }

  // ---------------------------------------------------------------------------
  // generateCombinations: the lists `backtrack` appends to `results`

  /** The room that takes `a` adults and the first `c` of the remaining ages. */
  function RoomOf(remaining: GuestGroup, a: nat, c: nat): GuestGroup
  {
    GuestGroup(a, c, Take(remaining.childAges, c))
  }

  /** What is left to place after that room. */
  function RestOf(remaining: GuestGroup, a: nat, c: nat): GuestGroup
    requires a <= remaining.adults && c <= remaining.children
  {
    GuestGroup(remaining.adults - a, remaining.children - c, Drop(remaining.childAges, c))
  }

  /** The partitions `backtrack(current, remaining)` emits, in emission order. */
  function Splits(current: seq<GuestGroup>, remaining: GuestGroup): seq<seq<GuestGroup>>
    decreases remaining.adults, 2, 0
  {
    if remaining.adults == 0 && remaining.children == 0 then [current]
    else AdultChoices(current, remaining, 1)
  }

  /** The outer loop from adult count `a` on. */
  function AdultChoices(current: seq<GuestGroup>, remaining: GuestGroup, a: nat): seq<seq<GuestGroup>>
    requires a >= 1
    decreases remaining.adults, 1, remaining.adults + 1 - a
  {
    if a > remaining.adults then []
    else ChildChoices(current, remaining, a, 0) + AdultChoices(current, remaining, a + 1)
  }

  /**
   * The inner loop from child count `c` on. The source's guard
   * `rest.adults >= 0 && rest.children >= 0 && a >= 1` always holds here.
   */
  function ChildChoices(current: seq<GuestGroup>, remaining: GuestGroup, a: nat, c: nat): seq<seq<GuestGroup>>
    requires 1 <= a <= remaining.adults
    decreases remaining.adults, 0, remaining.children + 1 - c
  {
    if c > remaining.children then []
    else Splits(current + [RoomOf(remaining, a, c)], RestOf(remaining, a, c))
         + ChildChoices(current, remaining, a, c + 1)
  }

  /** Everything `generateCombinations(guests)` returns. */
  function Partitions(guests: GuestGroup): (ps: seq<seq<GuestGroup>>)
    ensures guests.adults == 0 && guests.children == 0 ==> ps == [[]]
    ensures guests.adults == 0 && guests.children > 0 ==> ps == []
  {
    assert guests.adults == 0 ==> AdultChoices([], guests, 1) == [];
    Splits([], guests)
  }

  // Soundness: everything emitted extends `current` by a split of `remaining`.

  predicate Extends(p: seq<GuestGroup>, current: seq<GuestGroup>, remaining: GuestGroup)
  {
    && |current| <= |p|
    && p[..|current|] == current
    && SplitsCounts(p[|current|..], remaining)
    && (WellFormed(remaining) ==> SplitsAges(p[|current|..], remaining))
  }

  lemma {:induction false} ExtendsByRoom(p: seq<GuestGroup>, current: seq<GuestGroup>, remaining: GuestGroup, a: nat, c: nat)
    requires 1 <= a <= remaining.adults && c <= remaining.children
    requires Extends(p, current + [RoomOf(remaining, a, c)], RestOf(remaining, a, c))
    ensures Extends(p, current, remaining)
  {
    var room := RoomOf(remaining, a, c);
    var rest := RestOf(remaining, a, c);
    var tail := p[|current| + 1..];
    assert p[..|current| + 1] == current + [room];
    assert p[..|current|] == current by {
      assert p[..|current|] == p[..|current| + 1][..|current|];
    }
    assert p[|current|..] == [room] + tail;
    assert ([room] + tail)[1..] == tail;
    if WellFormed(remaining) {
      assert WellFormed(rest);
      assert WellFormed(room);
    }
  }

  lemma {:induction false} SplitsSound(current: seq<GuestGroup>, remaining: GuestGroup, p: seq<GuestGroup>)
    requires p in Splits(current, remaining)
    ensures Extends(p, current, remaining)
    decreases remaining.adults, 2, 0
  {
    if remaining.adults == 0 && remaining.children == 0 {
      assert p == current;
      assert p[|current|..] == [];
    } else {
      AdultChoicesSound(current, remaining, 1, p);
    }
  }

  lemma {:induction false} AdultChoicesSound(current: seq<GuestGroup>, remaining: GuestGroup, a: nat, p: seq<GuestGroup>)
    requires a >= 1
    requires p in AdultChoices(current, remaining, a)
    ensures Extends(p, current, remaining)
    decreases remaining.adults, 1, remaining.adults + 1 - a
  {
    if p in ChildChoices(current, remaining, a, 0) {
      ChildChoicesSound(current, remaining, a, 0, p);
    } else {
      AdultChoicesSound(current, remaining, a + 1, p);
    }
  }

  lemma {:induction false} ChildChoicesSound(current: seq<GuestGroup>, remaining: GuestGroup, a: nat, c: nat, p: seq<GuestGroup>)
    requires 1 <= a <= remaining.adults
    requires p in ChildChoices(current, remaining, a, c)
    ensures Extends(p, current, remaining)
    decreases remaining.adults, 0, remaining.children + 1 - c
  {
    if p in Splits(current + [RoomOf(remaining, a, c)], RestOf(remaining, a, c)) {
      SplitsSound(current + [RoomOf(remaining, a, c)], RestOf(remaining, a, c), p);
      ExtendsByRoom(p, current, remaining, a, c);
    } else {
      ChildChoicesSound(current, remaining, a, c + 1, p);
    }
  }

  // Completeness: every partition of `remaining` is emitted after `current`.

  lemma {:induction false} ChildChoicesContain(current: seq<GuestGroup>, remaining: GuestGroup, a: nat, c0: nat, c: nat, p: seq<GuestGroup>)
    requires 1 <= a <= remaining.adults
    requires c0 <= c <= remaining.children
    requires p in Splits(current + [RoomOf(remaining, a, c)], RestOf(remaining, a, c))
    ensures p in ChildChoices(current, remaining, a, c0)
    decreases c - c0
  {
    if c0 < c {
      ChildChoicesContain(current, remaining, a, c0 + 1, c, p);
    }
  }

  lemma {:induction false} AdultChoicesContain(current: seq<GuestGroup>, remaining: GuestGroup, a0: nat, a: nat, p: seq<GuestGroup>)
    requires 1 <= a0 <= a <= remaining.adults
    requires p in ChildChoices(current, remaining, a, 0)
    ensures p in AdultChoices(current, remaining, a0)
    decreases a - a0
  {
    if a0 < a {
      AdultChoicesContain(current, remaining, a0 + 1, a, p);
    }
  }

  lemma {:induction false} SplitsComplete(current: seq<GuestGroup>, remaining: GuestGroup, rooms: seq<GuestGroup>)
    requires IsPartitionOf(rooms, remaining)
    ensures current + rooms in Splits(current, remaining)
    decreases |rooms|
  {
    if rooms == [] {
      assert current + rooms == current;
    } else {
      var room, tail := rooms[0], rooms[1..];
      assert rooms == [room] + tail;
      assert room.adults >= 1;
      var a, c := room.adults, room.children;
      assert WellFormed(room);
      assert remaining.childAges == room.childAges + ConcatAges(tail);
      assert room.childAges == Take(remaining.childAges, c);
      assert RoomOf(remaining, a, c) == room;
      var rest := RestOf(remaining, a, c);
      assert rest.childAges == ConcatAges(tail) by {
        assert Take(remaining.childAges, c) + rest.childAges == remaining.childAges;
      }
      assert forall k :: 0 <= k < |tail| ==> tail[k] == rooms[k + 1];
      assert IsPartitionOf(tail, rest);
      SplitsComplete(current + [room], rest, tail);
      assert (current + [room]) + tail == current + rooms;
      ChildChoicesContain(current, remaining, a, 0, c, current + rooms);
      AdultChoicesContain(current, remaining, 1, a, current + rooms);
    }
  }

  /** For a well-formed party, the search emits exactly its partitions. */
  lemma PartitionsExactly(guests: GuestGroup, rooms: seq<GuestGroup>)
    requires WellFormed(guests)
    ensures rooms in Partitions(guests) <==> IsPartitionOf(rooms, guests)
  {
    if rooms in Partitions(guests) {
      SplitsSound([], guests, rooms);
      assert rooms[0..] == rooms;
    }
    if IsPartitionOf(rooms, guests) {
      SplitsComplete([], guests, rooms);
      assert [] + rooms == rooms;
    }
  }

  /** Whatever the ages, every emitted partition has an adult per room and conserves the counts. */
  lemma PartitionsConserveCounts(guests: GuestGroup, rooms: seq<GuestGroup>)
    requires rooms in Partitions(guests)
    ensures SplitsCounts(rooms, guests)
  {
    SplitsSound([], guests, rooms);
    assert rooms[0..] == rooms;
  }

  /** A well-formed party with an adult can take a single room, and the search offers it. */
  lemma SingleRoomIsAPartition(guests: GuestGroup)
    requires WellFormed(guests) && guests.adults >= 1
    ensures [guests] in Partitions(guests)
  {
    assert [guests] == [guests] + [];
    SplitsCons(guests, []);
    assert IsPartitionOf([guests], guests);
    PartitionsExactly(guests, [guests]);
  }

  /** The recursive `backtrack`, appending what it emits to the shared `results`. */
  method Backtrack(current: seq<GuestGroup>, remaining: GuestGroup, results: seq<seq<GuestGroup>>)
    returns (out: seq<seq<GuestGroup>>)
    ensures out == results + Splits(current, remaining)
    decreases remaining.adults
  {
    if remaining.adults == 0 && remaining.children == 0 {
      return results + [current];
    }
    out := results;
    var a := 1;
    while a <= remaining.adults
      invariant 1 <= a <= remaining.adults + 1
      invariant out + AdultChoices(current, remaining, a) == results + Splits(current, remaining)
    {
      var c := 0;
      while c <= remaining.children
        invariant 0 <= c <= remaining.children + 1
        invariant out + ChildChoices(current, remaining, a, c) + AdultChoices(current, remaining, a + 1)
                  == results + Splits(current, remaining)
      {
        var newGroup := RoomOf(remaining, a, c);
        var rest := RestOf(remaining, a, c);
        ghost var before := out;
        out := Backtrack(current + [newGroup], rest, out);
        assert out + ChildChoices(current, remaining, a, c + 1) == before + ChildChoices(current, remaining, a, c);
        c := c + 1;
      }
      a := a + 1;
    }
  }

  /** `generateCombinations`: every split of the party, in the search's order. */
  method GenerateCombinations(guests: GuestGroup) returns (results: seq<seq<GuestGroup>>)
    ensures results == Partitions(guests)
    ensures forall rooms :: rooms in results ==> SplitsCounts(rooms, guests)
    ensures WellFormed(guests) ==> forall rooms :: rooms in results <==> IsPartitionOf(rooms, guests)
  {
    results := Backtrack([], guests, []);
    forall rooms | rooms in results
      ensures SplitsCounts(rooms, guests)
    {
      PartitionsConserveCounts(guests, rooms);
    }
    if WellFormed(guests) {
      forall rooms
        ensures rooms in results <==> IsPartitionOf(rooms, guests)
      {
        PartitionsExactly(guests, rooms);
      }
    }
  }

  // ---------------------------------------------------------------------------
  // findBestRoomDistribution

  function RoomMultiplier(carpans: seq<MultiplierRow>, hotelName: string, roomType: string, room: GuestGroup): Option<real>
  {
    GetMultiplier(carpans, hotelName, roomType, room.adults, room.children, room.childAges)
  }

  /** Every room of the split has a truthy multiplier (`if (!multiplier)` rejects a missing or zero one). */
  predicate FullyPriced(carpans: seq<MultiplierRow>, hotelName: string, roomType: string, rooms: seq<GuestGroup>)
  {
    forall k :: 0 <= k < |rooms| ==> Truthy(RoomMultiplier(carpans, hotelName, roomType, rooms[k]))
  }

  function FactorOf(carpans: seq<MultiplierRow>, hotelName: string, roomType: string, room: GuestGroup): real
  {
    match RoomMultiplier(carpans, hotelName, roomType, room)
    case Some(m) => m
    case None => 0.0
  }

  /** Sum of the rooms' multipliers. */
  function ComboTotal(carpans: seq<MultiplierRow>, hotelName: string, roomType: string, rooms: seq<GuestGroup>): real
  {
    if rooms == [] then 0.0
    else ComboTotal(carpans, hotelName, roomType, rooms[..|rooms| - 1]) + FactorOf(carpans, hotelName, roomType, rooms[|rooms| - 1])
  }

  /** The rooms, each annotated with its multiplier. */
  function Annotate(carpans: seq<MultiplierRow>, hotelName: string, roomType: string, rooms: seq<GuestGroup>): (r: seq<RoomOption>)
    ensures |r| == |rooms|
    ensures forall k :: 0 <= k < |rooms| ==>
      r[k] == RoomOption(rooms[k].adults, rooms[k].children, rooms[k].childAges, FactorOf(carpans, hotelName, roomType, rooms[k]))
  {
    if rooms == [] then []
    else
      var last := rooms[|rooms| - 1];
      Annotate(carpans, hotelName, roomType, rooms[..|rooms| - 1])
        + [RoomOption(last.adults, last.children, last.childAges, FactorOf(carpans, hotelName, roomType, last))]
  }

  /** The result built for a fully priced split. */
  function Priced(carpans: seq<MultiplierRow>, hotelName: string, roomType: string, rooms: seq<GuestGroup>): BestRoomResult
  {
    BestRoomResult(Annotate(carpans, hotelName, roomType, rooms), ComboTotal(carpans, hotelName, roomType, rooms))
  }

  /**
   * Element `i` of `xs` is acceptable, no acceptable element among the first
   * `n` costs less, and every earlier acceptable one costs more: the element a
   * scan keeping the first strict minimum ends on.
   */
  predicate CheapestBy<T>(ok: T -> bool, cost: T -> real, xs: seq<T>, n: nat, i: nat)
    requires n <= |xs|
  {
    && i < n
    && ok(xs[i])
    && (forall j :: 0 <= j < n && ok(xs[j]) ==> cost(xs[i]) <= cost(xs[j]))
    && (forall j :: 0 <= j < i && ok(xs[j]) ==> cost(xs[i]) < cost(xs[j]))
  }

  /** Split `i` is the first fully priced split of smallest total among the first `n`. */
  predicate CheapestAmong(carpans: seq<MultiplierRow>, hotelName: string, roomType: string,
                          combos: seq<seq<GuestGroup>>, n: nat, i: nat)
    requires n <= |combos|
  {
    CheapestBy(rooms => FullyPriced(carpans, hotelName, roomType, rooms),
               rooms => ComboTotal(carpans, hotelName, roomType, rooms), combos, n, i)
  }

  /**
   * The inner loop of `findBestRoomDistribution` over one split: look up each
   * room's multiplier, stop at the first unusable one, otherwise annotate the
   * rooms and add up their multipliers.
   */
  method PriceRooms(carpans: seq<MultiplierRow>, hotelName: string, roomType: string, combo: seq<GuestGroup>)
    returns (valid: bool, roomDetails: seq<RoomOption>, totalMultiplier: real)
    ensures valid == FullyPriced(carpans, hotelName, roomType, combo)
    ensures valid ==> roomDetails == Annotate(carpans, hotelName, roomType, combo)
                      && totalMultiplier == ComboTotal(carpans, hotelName, roomType, combo)
  {
    roomDetails := [];
    totalMultiplier := 0.0;
    valid := true;
    var k := 0;
    while k < |combo|
      invariant 0 <= k <= |combo|
      invariant valid ==> && FullyPriced(carpans, hotelName, roomType, combo[..k])
                          && roomDetails == Annotate(carpans, hotelName, roomType, combo[..k])
                          && totalMultiplier == ComboTotal(carpans, hotelName, roomType, combo[..k])
      invariant !valid ==> !FullyPriced(carpans, hotelName, roomType, combo)
    {
      var room := combo[k];
      var multiplier := RoomMultiplier(carpans, hotelName, roomType, room);
      PricedPrefixStep(carpans, hotelName, roomType, combo, k);
      if !Truthy(multiplier) {
        valid := false;
        break;
      }
      roomDetails := roomDetails + [RoomOption(room.adults, room.children, room.childAges, multiplier.value)];
      totalMultiplier := totalMultiplier + multiplier.value;
      k := k + 1;
    }
    if valid {
      assert combo[..k] == combo;
    }
  }

  /** One more room of the split, priced or not. */
  lemma PricedPrefixStep(carpans: seq<MultiplierRow>, hotelName: string, roomType: string, combo: seq<GuestGroup>, k: nat)
    requires k < |combo|
    ensures !Truthy(RoomMultiplier(carpans, hotelName, roomType, combo[k])) ==> !FullyPriced(carpans, hotelName, roomType, combo)
    ensures FullyPriced(carpans, hotelName, roomType, combo[..k]) && Truthy(RoomMultiplier(carpans, hotelName, roomType, combo[k])) ==>
      var m := RoomMultiplier(carpans, hotelName, roomType, combo[k]).value;
      var room := combo[k];
      && FullyPriced(carpans, hotelName, roomType, combo[..k + 1])
      && Annotate(carpans, hotelName, roomType, combo[..k + 1])
         == Annotate(carpans, hotelName, roomType, combo[..k]) + [RoomOption(room.adults, room.children, room.childAges, m)]
      && ComboTotal(carpans, hotelName, roomType, combo[..k + 1]) == ComboTotal(carpans, hotelName, roomType, combo[..k]) + m
  {
    assert combo[..k + 1][..k] == combo[..k];
    assert combo[..k + 1][k] == combo[k];
  }

  /** The first acceptable element is the cheapest so far. */
  lemma CheapestFirst<T>(ok: T -> bool, cost: T -> real, xs: seq<T>, i: nat)
    requires i < |xs| && ok(xs[i])
    requires forall j :: 0 <= j < i ==> !ok(xs[j])
    ensures CheapestBy(ok, cost, xs, i + 1, i)
  {
  }

  /** One more element: the cheapest so far stays unless the new one is acceptable and costs strictly less. */
  lemma CheapestStep<T>(ok: T -> bool, cost: T -> real, xs: seq<T>, i: nat, b: nat)
    requires i < |xs| && CheapestBy(ok, cost, xs, i, b)
    ensures if ok(xs[i]) && cost(xs[i]) < cost(xs[b])
            then CheapestBy(ok, cost, xs, i + 1, i)
            else CheapestBy(ok, cost, xs, i + 1, b)
  {
  }

  /** The minimum over the emitted splits is the minimum over all partitions of a well-formed party. */
  lemma CheapestIsGlobal(carpans: seq<MultiplierRow>, hotelName: string, roomType: string, guests: GuestGroup, i: nat)
    requires WellFormed(guests)
    requires i < |Partitions(guests)|
    requires CheapestAmong(carpans, hotelName, roomType, Partitions(guests), |Partitions(guests)|, i)
    ensures forall rooms :: IsPartitionOf(rooms, guests) && FullyPriced(carpans, hotelName, roomType, rooms) ==>
              ComboTotal(carpans, hotelName, roomType, Partitions(guests)[i]) <= ComboTotal(carpans, hotelName, roomType, rooms)
  {
    var ps := Partitions(guests);
    forall rooms | IsPartitionOf(rooms, guests) && FullyPriced(carpans, hotelName, roomType, rooms)
      ensures ComboTotal(carpans, hotelName, roomType, ps[i]) <= ComboTotal(carpans, hotelName, roomType, rooms)
    {
      PartitionsExactly(guests, rooms);
      var j :| 0 <= j < |ps| && ps[j] == rooms;
    }
  }

  /** For a well-formed party, some emitted split is fully priced iff some partition is. */
  lemma SomePricedIsGlobal(carpans: seq<MultiplierRow>, hotelName: string, roomType: string, guests: GuestGroup)
    requires WellFormed(guests)
    ensures (forall i :: 0 <= i < |Partitions(guests)| ==> !FullyPriced(carpans, hotelName, roomType, Partitions(guests)[i]))
        <==> (forall rooms :: IsPartitionOf(rooms, guests) ==> !FullyPriced(carpans, hotelName, roomType, rooms))
  {
    var ps := Partitions(guests);
    forall rooms
      ensures IsPartitionOf(rooms, guests) <==> rooms in ps
    {
      PartitionsExactly(guests, rooms);
    }
  }

  /**
   * `findBestRoomDistribution`: among the splits the search emits, the first
   * fully priced one with the smallest total multiplier; `None` when no split
   * is fully priced. For a well-formed party this is the minimum over all of
   * its partitions.
   */
  method FindBestRoomDistribution(hotelName: string, roomType: string, guests: GuestGroup, carpans: seq<MultiplierRow>)
    returns (best: Option<BestRoomResult>)
    ensures best.None? <==> forall i :: 0 <= i < |Partitions(guests)| ==> !FullyPriced(carpans, hotelName, roomType, Partitions(guests)[i])
    ensures best.Some? ==> exists i :: 0 <= i < |Partitions(guests)|
                                       && CheapestAmong(carpans, hotelName, roomType, Partitions(guests), |Partitions(guests)|, i)
                                       && best.value == Priced(carpans, hotelName, roomType, Partitions(guests)[i])
    ensures WellFormed(guests) ==>
      (best.None? <==> forall rooms :: IsPartitionOf(rooms, guests) ==> !FullyPriced(carpans, hotelName, roomType, rooms))
    ensures WellFormed(guests) && best.Some? ==>
      forall rooms :: IsPartitionOf(rooms, guests) && FullyPriced(carpans, hotelName, roomType, rooms) ==>
        best.value.totalMultiplier <= ComboTotal(carpans, hotelName, roomType, rooms)
  {
    var combos := GenerateCombinations(guests);
    ghost var bestIdx;
    best, bestIdx := CheapestSplit(hotelName, roomType, combos, carpans);
    if WellFormed(guests) {
      SomePricedIsGlobal(carpans, hotelName, roomType, guests);
      if best.Some? {
        CheapestIsGlobal(carpans, hotelName, roomType, guests, bestIdx);
      }
    }
  }

  /**
   * The loop of `findBestRoomDistribution` over the emitted splits: price each
   * one and keep it when it is the first fully priced one or strictly cheaper
   * than the best so far.
   */
  method CheapestSplit(hotelName: string, roomType: string, combos: seq<seq<GuestGroup>>, carpans: seq<MultiplierRow>)
    returns (best: Option<BestRoomResult>, ghost bestIdx: nat)
    ensures best.None? <==> forall j :: 0 <= j < |combos| ==> !FullyPriced(carpans, hotelName, roomType, combos[j])
    ensures best.Some? ==> && CheapestAmong(carpans, hotelName, roomType, combos, |combos|, bestIdx)
                           && best.value == Priced(carpans, hotelName, roomType, combos[bestIdx])
  {
    ghost var priced := rooms => FullyPriced(carpans, hotelName, roomType, rooms);
    ghost var total := rooms => ComboTotal(carpans, hotelName, roomType, rooms);
    best := None;
    bestIdx := 0;
    var i := 0;
    while i < |combos|
      invariant 0 <= i <= |combos|
      invariant best.None? <==> forall j :: 0 <= j < i ==> !FullyPriced(carpans, hotelName, roomType, combos[j])
      invariant best.Some? ==> CheapestAmong(carpans, hotelName, roomType, combos, i, bestIdx)
                               && best.value == Priced(carpans, hotelName, roomType, combos[bestIdx])
    {
      var valid, roomDetails, totalMultiplier := PriceRooms(carpans, hotelName, roomType, combos[i]);
      if best.None? {
        if valid {
          CheapestFirst(priced, total, combos, i);
        }
      } else {
        CheapestStep(priced, total, combos, i, bestIdx);
      }
      if valid && (best.None? || totalMultiplier < best.value.totalMultiplier) {
        best := Some(BestRoomResult(roomDetails, totalMultiplier));
        bestIdx := i;
      }
      i := i + 1;
    }
  }
}

=== FILE: seq_util.dfy ===
/**
 * Sequence helpers with the meaning of the JavaScript array operations the
 * engine uses: `Array.prototype.find` (first element satisfying a predicate)
 * and `Array.prototype.slice` (which clamps its bounds to the array length).
 */
module SeqUtil {
  import opened Wrappers

  /** Index of the first element of `s` satisfying `p`, as `find` looks for it. */
  function FirstIndex<T>(s: seq<T>, p: T -> bool): (k: Option<nat>)
    ensures k.Some? ==> k.value < |s| && p(s[k.value]) && forall j :: 0 <= j < k.value ==> !p(s[j])
    ensures k.None? ==> forall j :: 0 <= j < |s| ==> !p(s[j])
  {
    if |s| == 0 then None
    else if p(s[0]) then Some(0)
    else match FirstIndex(s[1..], p)
      case None => None
      case Some(k) => Some(k + 1)
  }

  /** `s.slice(0, n)`: the first `n` elements, or all of `s` when it is shorter. */
  function Take<T>(s: seq<T>, n: nat): (t: seq<T>)
    ensures |t| == if n <= |s| then n else |s|
  {
    if n <= |s| then s[..n] else s
  }

  /** `s.slice(n)`: what is left after the first `n` elements, empty when `s` is shorter. */
  function Drop<T>(s: seq<T>, n: nat): (t: seq<T>)
    ensures |t| == if n <= |s| then |s| - n else 0
  {
    if n <= |s| then s[n..] else []
  }

  /**
   * The two slices are a prefix and the rest: put together they give `s` back.
   * (A lemma rather than postconditions, so that the slices stay cheap to mention.)
   */
  lemma TakeDrop<T>(s: seq<T>, n: nat)
    ensures Take(s, n) == s[..|Take(s, n)|]
    ensures Take(s, n) + Drop(s, n) == s
  {
  }

  /** Three consecutive slices `[0, i)`, `[i, i + j)` and `[i + j, |s|)` put back together give `s`. */
  lemma ThreeSlices<T>(s: seq<T>, i: nat, j: nat)
    requires i + j <= |s|
    ensures |Take(s, i)| == i && |Take(Drop(s, i), j)| == j && |Drop(s, i + j)| == |s| - i - j
    ensures Drop(Drop(s, i), j) == Drop(s, i + j)
    ensures Take(s, i) + Take(Drop(s, i), j) + Drop(s, i + j) == s
  {
    assert s[i..][j..] == s[i + j..];
    assert s[..i] + s[i..][..j] + s[i + j..] == s;
  }

  /** Membership in a concatenation, stated for one element so that it needs no search. */
  lemma InConcat<T>(x: T, s: seq<T>, t: seq<T>)
    ensures x in s + t <==> x in s || x in t
  {
  }

  /** Concatenation is associative; stated for three given sequences so that no search is needed. */
  lemma AppendAssoc<T>(a: seq<T>, b: seq<T>, c: seq<T>)
    ensures (a + b) + c == a + (b + c)
  {
  }

  /** Two concatenations with equally long first parts are equal only part by part. */
  lemma AppendInjective<T>(a: seq<T>, b: seq<T>, a': seq<T>, b': seq<T>)
    requires a + b == a' + b' && |a| == |a'|
    ensures a == a' && b == b'
  {
    assert a == (a + b)[..|a|] && a' == (a' + b')[..|a'|];
    assert b == (a + b)[|a|..] && b' == (a' + b')[|a'|..];
  }
}

=== FILE: stay_pricing.dfy ===
/**
 * Pricing one rate row of one hotel for a stay: the nights of the stay, the
 * nightly rate lookup, the normalised party, and the offering the row yields
 * (room count, room type, board concept and total amount) or none.
 */
module StayPricing {
  import opened Wrappers
  import opened SeqUtil
  import opened Catalog
  import opened Guests
  import opened GuestNormalization
  import opened CarpanLookup
  import opened RoomCombinations
  import opened FactorSelection

  /**
   * One priced line of a hotel: the room count and type, the board concept,
   * the summed nightly rates of the stay and the factor they are multiplied by.
   */
  datatype Offering = Offering(roomCount: nat, roomType: string, concept: string, stayTotal: real, factor: real)

  /** The amount shown for an offering (before rounding and formatting). */
  function Amount(o: Offering): real
  {
    o.stayTotal * o.factor
  }

  /** The nights of a stay: every day from check-in up to, not including, check-out. */
  function NightsOf(checkin: int, checkout: int): (nights: seq<int>)
    ensures |nights| == if checkin < checkout then checkout - checkin else 0
    decreases checkout - checkin
  {
    if checkin < checkout then [checkin] + NightsOf(checkin + 1, checkout) else []
  }

  /** The nights are consecutive days from check-in, and a day is one of them exactly when it lies in `[checkin, checkout)`. */
  lemma {:induction false} NightsOfCoverStay(checkin: int, checkout: int)
    ensures forall k :: 0 <= k < |NightsOf(checkin, checkout)| ==> NightsOf(checkin, checkout)[k] == checkin + k
    ensures forall d :: d in NightsOf(checkin, checkout) <==> checkin <= d < checkout
    decreases checkout - checkin
  {
    if checkin < checkout {
      NightsOfCoverStay(checkin + 1, checkout);
      var nights := NightsOf(checkin, checkout);
      assert nights == [checkin] + NightsOf(checkin + 1, checkout);
      forall k | 0 <= k < |nights|
        ensures nights[k] == checkin + k
      {
        if k > 0 {
          assert nights[k] == NightsOf(checkin + 1, checkout)[k - 1];
        }
      }
    }
  }

  /** The cursor loop that lists the nights of the stay one day at a time. */
  method StayNights(checkin: int, checkout: int) returns (nights: seq<int>)
    ensures nights == NightsOf(checkin, checkout)
  {
    nights := [];
    var cursor := checkin;
    while cursor < checkout
      invariant nights + NightsOf(cursor, checkout) == NightsOf(checkin, checkout)
      decreases checkout - cursor
    {
      assert NightsOf(cursor, checkout) == [cursor] + NightsOf(cursor + 1, checkout);
      nights := nights + [cursor];
      cursor := cursor + 1;
    }
    assert NightsOf(cursor, checkout) == [];
  }

  /** A rate row applies to a night when room type and concept agree and the night is inside its period, both ends included. */
  predicate Covers(row: RateRow, roomType: string, concept: string, night: int)
  {
    row.roomType == roomType && row.concept == concept && row.periodStart <= night <= row.periodEnd
  }

  /** The price of the first row of the hotel that applies to the night. */
  function NightRate(rows: seq<RateRow>, roomType: string, concept: string, night: int): (r: Option<real>)
  {
    match FirstIndex(rows, row => Covers(row, roomType, concept, night))
    case None => None
    case Some(k) => Some(rows[k].price)
  }

  /** A night has a rate exactly when some row covers it, and the rate is that of the first such row. */
  lemma NightRateFirst(rows: seq<RateRow>, roomType: string, concept: string, night: int)
    ensures NightRate(rows, roomType, concept, night).None? <==>
      forall k :: 0 <= k < |rows| ==> !Covers(rows[k], roomType, concept, night)
    ensures NightRate(rows, roomType, concept, night).Some? ==>
      exists k :: && 0 <= k < |rows| && Covers(rows[k], roomType, concept, night)
                  && (forall j :: 0 <= j < k ==> !Covers(rows[j], roomType, concept, night))
                  && NightRate(rows, roomType, concept, night).value == rows[k].price
  {
  }

  /** The sum of the nightly rates, `None` when some night has no applicable row. */
  function StayTotal(rows: seq<RateRow>, roomType: string, concept: string, nights: seq<int>): (r: Option<real>)
  {
    if nights == [] then Some(0.0)
    else
      var front := nights[..|nights| - 1];
      var last := nights[|nights| - 1];
      match StayTotal(rows, roomType, concept, front)
      case None => None
      case Some(t) =>
        match NightRate(rows, roomType, concept, last)
        case None => None
        case Some(p) => Some(t + p)
  }

  /** A stay has a total exactly when every night has a rate. */
  lemma {:induction false} StayTotalDefined(rows: seq<RateRow>, roomType: string, concept: string, nights: seq<int>)
    ensures StayTotal(rows, roomType, concept, nights).Some? <==>
      forall k :: 0 <= k < |nights| ==> NightRate(rows, roomType, concept, nights[k]).Some?
  {
    if nights != [] {
      var front := nights[..|nights| - 1];
      StayTotalDefined(rows, roomType, concept, front);
      assert forall k :: 0 <= k < |front| ==> front[k] == nights[k];
    }
  }

  /** The total of a stay split in two is the sum of the totals of the parts. */
  lemma {:induction false} StayTotalAppend(rows: seq<RateRow>, roomType: string, concept: string, a: seq<int>, b: seq<int>)
    ensures StayTotal(rows, roomType, concept, a + b).Some? <==>
      StayTotal(rows, roomType, concept, a).Some? && StayTotal(rows, roomType, concept, b).Some?
    ensures StayTotal(rows, roomType, concept, a + b).Some? ==>
      StayTotal(rows, roomType, concept, a + b).value ==
      StayTotal(rows, roomType, concept, a).value + StayTotal(rows, roomType, concept, b).value
    decreases |b|
  {
    if b == [] {
      assert a + b == a;
    } else {
      var b' := b[..|b| - 1];
      assert (a + b)[..|a + b| - 1] == a + b';
      assert (a + b)[|a + b| - 1] == b[|b| - 1];
      StayTotalAppend(rows, roomType, concept, a, b');
    }
  }

  /** The total over one more night extends the total so far by that night's rate. */
  lemma StayTotalStep(rows: seq<RateRow>, roomType: string, concept: string, nights: seq<int>, i: nat, total: real, rate: real)
    requires i < |nights|
    requires StayTotal(rows, roomType, concept, nights[..i]) == Some(total)
    requires NightRate(rows, roomType, concept, nights[i]) == Some(rate)
    ensures StayTotal(rows, roomType, concept, nights[..i + 1]) == Some(total + rate)
  {
    var next := nights[..i + 1];
    assert next[..|next| - 1] == nights[..i] && next[|next| - 1] == nights[i];
  }

  /** A night without an applicable row leaves the whole stay without a total. */
  lemma NightWithoutRate(rows: seq<RateRow>, roomType: string, concept: string, nights: seq<int>, i: nat)
    requires i < |nights| && NightRate(rows, roomType, concept, nights[i]).None?
    ensures StayTotal(rows, roomType, concept, nights).None?
  {
    StayTotalDefined(rows, roomType, concept, nights);
  }

  /** The night loop: stops at the first night without a rate, otherwise adds up the rates. */
  method SumStay(rows: seq<RateRow>, roomType: string, concept: string, nights: seq<int>) returns (valid: bool, total: real)
    ensures valid <==> StayTotal(rows, roomType, concept, nights).Some?
    ensures valid ==> total == StayTotal(rows, roomType, concept, nights).value
  {
    valid := true;
    total := 0.0;
    var i := 0;
    while i < |nights|
      invariant 0 <= i <= |nights|
      invariant StayTotal(rows, roomType, concept, nights[..i]) == Some(total)
    {
      var rate := NightRate(rows, roomType, concept, nights[i]);
      if rate.None? {
        NightWithoutRate(rows, roomType, concept, nights, i);
        valid := false;
        break;
      }
      StayTotalStep(rows, roomType, concept, nights, i, total, rate.value);
      total := total + rate.value;
      i := i + 1;
    }
    if valid {
      assert nights[..i] == nights;
    }
  }

  /** The guests as `normalizeGuests` leaves them for the hotel. */
  function NormalizedParty(carpans: seq<MultiplierRow>, hotelId: int, adults: nat, childAges: seq<real>): (g: GuestGroup)
    ensures WellFormed(g)
    ensures g.adults >= adults
    ensures g.adults + g.children == adults + |childAges|
    ensures forall x :: x in g.childAges ==> x <= MaxChildAge(carpans, hotelId)
    ensures multiset(g.childAges) <= multiset(childAges)
    ensures g.childAges == KeptAges(childAges, MaxChildAge(carpans, hotelId))
    ensures g.adults == adults + |DroppedAges(childAges, MaxChildAge(carpans, hotelId))|
  {
    var ceiling := MaxChildAge(carpans, hotelId);
    KeptAgesBounded(childAges, ceiling);
    KeptAndDropped(childAges, ceiling);
    var kept := KeptAges(childAges, ceiling);
    GuestGroup(adults + |DroppedAges(childAges, ceiling)|, |kept|, kept)
  }

  /**
   * What rate row `row` offers for the party and the nights: a selected factor
   * and a rate for every night, the amount being the summed rates times the factor.
   */
  function OfferFor(carpans: seq<MultiplierRow>, hotelId: int, rows: seq<RateRow>, row: RateRow,
                    party: GuestGroup, nights: seq<int>): (r: Option<Offering>)
    ensures r.Some? <==>
      && SelectFactor(carpans, hotelId, row.roomType, party).Some?
      && forall k :: 0 <= k < |nights| ==> NightRate(rows, row.roomType, row.concept, nights[k]).Some?
    ensures r.Some? ==>
      && r.value.roomType == row.roomType && r.value.concept == row.concept
      && 1 <= r.value.roomCount <= 3
      && r.value.factor != 0.0
      && Some(r.value.stayTotal) == StayTotal(rows, row.roomType, row.concept, nights)
    ensures r.Some? ==> SelectFactor(carpans, hotelId, row.roomType, party) == Some(Selection(r.value.roomCount, r.value.factor))
  {
    StayTotalDefined(rows, row.roomType, row.concept, nights);
    match SelectFactor(carpans, hotelId, row.roomType, party)
    case None => None
    case Some(sel) =>
      match StayTotal(rows, row.roomType, row.concept, nights)
      case None => None
      case Some(t) => Some(Offering(sel.roomCount, row.roomType, row.concept, t, sel.factor))
  }

  /**
   * An offering yielded by a row is priced at that row's room type and concept
   * with the selected factor. The selection and the stay total are the
   * content; the last clause only unfolds `Amount` for callers.
   */
  lemma OfferedAmount(carpans: seq<MultiplierRow>, hotelId: int, rows: seq<RateRow>, row: RateRow,
                      party: GuestGroup, nights: seq<int>, o: Offering)
    requires OfferFor(carpans, hotelId, rows, row, party, nights) == Some(o)
    ensures SelectFactor(carpans, hotelId, o.roomType, party) == Some(Selection(o.roomCount, o.factor))
    ensures StayTotal(rows, o.roomType, o.concept, nights) == Some(o.stayTotal)
    ensures Amount(o) == o.stayTotal * o.factor
  {
    AmountOf(o);
  }

  /**
   * Unfolds `Amount`. It is a lemma, called where needed, rather than a
   * postcondition of `Amount`, because a product of reals in a function's
   * contract slows every proof that mentions the function.
   */
  lemma AmountOf(o: Offering)
    ensures Amount(o) == o.stayTotal * o.factor
  {
  }

  /** A night for which the hotel has no applicable row removes the room type and concept from the answer. */
  lemma UncoveredNightDropsOffering(carpans: seq<MultiplierRow>, hotelId: int, rows: seq<RateRow>, row: RateRow,
                                    party: GuestGroup, nights: seq<int>, night: int)
    requires night in nights
    requires forall k :: 0 <= k < |rows| ==> !Covers(rows[k], row.roomType, row.concept, night)
    ensures OfferFor(carpans, hotelId, rows, row, party, nights).None?
  {
    var k :| 0 <= k < |nights| && nights[k] == night;
    assert NightRate(rows, row.roomType, row.concept, nights[k]).None?;
  }

  /** An offering for a stay means a rate on every day from check-in to the day before check-out. */
  lemma OfferCoversStay(carpans: seq<MultiplierRow>, hotelId: int, rows: seq<RateRow>, row: RateRow,
                        party: GuestGroup, checkin: int, checkout: int)
    requires OfferFor(carpans, hotelId, rows, row, party, NightsOf(checkin, checkout)).Some?
    ensures forall d :: checkin <= d < checkout ==> NightRate(rows, row.roomType, row.concept, d).Some?
  {
    var nights := NightsOf(checkin, checkout);
    NightsOfCoverStay(checkin, checkout);
    forall d | checkin <= d < checkout
      ensures NightRate(rows, row.roomType, row.concept, d).Some?
    {
      assert nights[d - checkin] == d;
    }
  }

  /** A party that fits one room at a non-zero factor is offered one room, at the stay's rates times that factor. */
  lemma SingleRoomOffering(carpans: seq<MultiplierRow>, hotelId: int, rows: seq<RateRow>, row: RateRow,
                           party: GuestGroup, nights: seq<int>)
    requires Truthy(RoomFactor(carpans, hotelId, row.roomType, party))
    requires StayTotal(rows, row.roomType, row.concept, nights).Some?
    ensures OfferFor(carpans, hotelId, rows, row, party, nights) ==
      Some(Offering(1, row.roomType, row.concept,
                    StayTotal(rows, row.roomType, row.concept, nights).value,
                    RoomFactor(carpans, hotelId, row.roomType, party).value))
  {
    var f := RoomFactor(carpans, hotelId, row.roomType, party).value;
    assert SelectFactor(carpans, hotelId, row.roomType, party) == Some(Selection(1, f));
  }

  /**
   * The factor step for one rate row: the single-room factor when it is
   * non-zero, otherwise the first bounded split with a row for every room.
   */
  method ChooseFactor(carpans: seq<MultiplierRow>, hotelId: int, roomType: string,
                      adults: nat, children: nat, childAges: seq<real>) returns (sel: Option<Selection>)
    ensures sel == SelectFactor(carpans, hotelId, roomType, GuestGroup(adults, children, childAges))
  {
    ghost var party := GuestGroup(adults, children, childAges);
    var roomCount: nat := 1;
    var single := FindCarpan(carpans, hotelId, roomType, adults, children, childAges);
    var factor := if single.Some? then single.value else 0.0;
    if !Truthy(single) {
      var combos := GenerateRoomCombinations(adults, children, childAges);
      var best := FirstIndex(combos, combo => AllRoomsMatch(carpans, hotelId, roomType, combo));
      assert best == FirstMatchedSplit(carpans, hotelId, roomType, party);
      if best.Some? {
        roomCount := |combos[best.value]|;
        factor := FactorSum(carpans, hotelId, roomType, combos[best.value]);
      }
    }
    if factor == 0.0 {
      sel := None;
    } else {
      sel := Some(Selection(roomCount, factor));
    }
  }

  /** The work the handler does for one rate row. */
  method PriceRow(carpans: seq<MultiplierRow>, hotelId: int, rows: seq<RateRow>, row: RateRow,
                  adults: nat, children: int, childAges: seq<real>, nights: seq<int>) returns (offer: Option<Offering>)
    ensures offer == OfferFor(carpans, hotelId, rows, row, NormalizedParty(carpans, hotelId, adults, childAges), nights)
  {
    var finalAdults, finalChildren, finalChildAges := NormalizeGuests(carpans, hotelId, adults, children, childAges);
    assert NormalizedParty(carpans, hotelId, adults, childAges) == GuestGroup(finalAdults, finalChildren, finalChildAges);
    var sel := ChooseFactor(carpans, hotelId, row.roomType, finalAdults, finalChildren, finalChildAges);
    if sel.None? {
      return None;
    }
    var valid, total := SumStay(rows, row.roomType, row.concept, nights);
    if valid {
      offer := Some(Offering(sel.value.roomCount, row.roomType, row.concept, total, sel.value.factor));
    } else {
      offer := None;
    }
  }
}

=== FILE: strategies.dfy ===
/**
 * How the two ways of splitting a party relate: the bounded list used by the
 * live request path holds the same splits as the unbounded enumeration
 * restricted to at most three rooms, but in a different order (the whole
 * party first), and the first match in that order is what gets priced.
 */
module Strategies {
  import opened Guests
  import opened RoomDistribution
  import opened RoomCombinations

  /** A one-room split of a party is the party itself. */
  lemma OneRoomSplitIsParty(rooms: seq<GuestGroup>, party: GuestGroup)
    requires |rooms| == 1 && IsPartitionOf(rooms, party)
    ensures rooms == [party]
  {
    var room := rooms[0];
    assert rooms == [room] + [];
    SplitsCons(room, []);
    assert room.childAges == ConcatAges(rooms);
    assert room == GuestGroup(party.adults, party.children, party.childAges);
  }

  /**
   * For a well-formed party with at least one adult, a split is in the
   * bounded list exactly when it has at most three rooms and is among all
   * splits.
   */
  lemma BoundedIsCappedEnumeration(party: GuestGroup, rooms: seq<GuestGroup>)
    requires WellFormed(party) && party.adults >= 1
    ensures rooms in Combinations(party.adults, party.children, party.childAges) <==>
      |rooms| <= 3 && rooms in Partitions(party)
  {
    var y, c, ages := party.adults, party.children, party.childAges;
    assert party == GuestGroup(y, c, ages);
    CombinationsSound(y, c, ages);
    PartitionsExactly(party, rooms);
    if rooms in Combinations(y, c, ages) {
      if rooms == [party] {
        SingleRoomIsAPartition(party);
      }
    }
    if |rooms| <= 3 && rooms in Partitions(party) {
      if |rooms| == 1 {
        OneRoomSplitIsParty(rooms, party);
        assert rooms == Combinations(y, c, ages)[0];
      } else if |rooms| >= 2 {
        CombinationsComplete(y, c, ages, rooms);
      }
    }
  }

  /**
   * A party without an adult: the bounded list still offers the whole party
   * in one room, while the enumeration offers only the empty split (no
   * guests) or nothing (children alone).
   */
  lemma NoAdultOnlyBounded(party: GuestGroup)
    requires party.adults == 0
    ensures Combinations(party.adults, party.children, party.childAges) == [[party]]
    ensures [party] !in Partitions(party)
  {
    assert party == GuestGroup(party.adults, party.children, party.childAges);
  }

  /** A split into more than three rooms is enumerated but never in the bounded list. */
  lemma MoreThanThreeRoomsOnlyEnumerated(party: GuestGroup, rooms: seq<GuestGroup>)
    requires WellFormed(party) && party.adults >= 1
    requires IsPartitionOf(rooms, party) && |rooms| > 3
    ensures rooms in Partitions(party) && rooms !in Combinations(party.adults, party.children, party.childAges)
  {
    PartitionsExactly(party, rooms);
    BoundedIsCappedEnumeration(party, rooms);
  }

  /** Four adults in four single rooms: a split the enumeration has and the bounded list has not. */
  lemma FourSinglesOnlyEnumerated()
    ensures
      var party := GuestGroup(4, 0, []);
      var singles := [GuestGroup(1, 0, []), GuestGroup(1, 0, []), GuestGroup(1, 0, []), GuestGroup(1, 0, [])];
      singles in Partitions(party) && singles !in Combinations(4, 0, [])
  {
    var party := GuestGroup(4, 0, []);
    var one := GuestGroup(1, 0, []);
    FourSinglesSplit(one);
    MoreThanThreeRoomsOnlyEnumerated(party, [one, one, one, one]);
  }

  /** Four copies of an adult-only single room split four adults. */
  lemma FourSinglesSplit(one: GuestGroup)
    requires one == GuestGroup(1, 0, [])
    ensures IsPartitionOf([one, one, one, one], GuestGroup(4, 0, []))
  {
    var singles := [one, one, one, one];
    assert singles[1..] == [one, one, one];
    TripleSplits(one, one, one);
  }

  /**
   * The two lists agree on membership, not on order. For two adults the
   * enumeration emits the two single rooms before the double room, while the
   * bounded list puts the whole party first.
   */
  lemma ListOrderDiffers()
    ensures
      var single, double := GuestGroup(1, 0, []), GuestGroup(2, 0, []);
      && Partitions(double) == [[single, single], [double]]
      && Combinations(2, 0, []) == [[double], [single, single]]
  {
    var single, double := GuestGroup(1, 0, []), GuestGroup(2, 0, []);
    var empty := GuestGroup(0, 0, []);
    assert RoomOf(double, 1, 0) == single && RestOf(double, 1, 0) == single;
    assert RoomOf(single, 1, 0) == single && RestOf(single, 1, 0) == empty;
    assert RoomOf(double, 2, 0) == double && RestOf(double, 2, 0) == empty;
    assert Splits([single], single) == [[single, single]] by {
      assert Splits([single, single], empty) == [[single, single]];
      assert [single] + [single] == [single, single];
      assert ChildChoices([single], single, 1, 1) == [];
      assert ChildChoices([single], single, 1, 0) == [[single, single]];
      assert AdultChoices([single], single, 2) == [];
    }
    assert Splits([], double) == [[single, single], [double]] by {
      assert [] + [single] == [single] && [] + [double] == [double];
      assert ChildChoices([], double, 1, 1) == [];
      assert ChildChoices([], double, 1, 0) == [[single, single]];
      assert Splits([double], empty) == [[double]];
      assert ChildChoices([], double, 2, 1) == [];
      assert ChildChoices([], double, 2, 0) == [[double]];
      assert AdultChoices([], double, 3) == [];
      assert AdultChoices([], double, 2) == [[double]];
    }
    assert TwoRooms(2, 0, [], 1, 0) == [single, single];
    assert TwoFrom(2, 0, [], 1) == [[single, single]] by {
      assert TwoChildrenFrom(2, 0, [], 1, 0) == [[single, single]];
    }
  }
}

=== FILE: wrappers.dfy ===
/** Optional values: the model's stand-in for JavaScript's `null` / `undefined` results. */
module Wrappers {

  datatype Option<+T> = None | Some(value: T)
}
